=== FILE: README.md ===
# Flashcard study app: state model in Dafny

This project models the client-side logic of a browser flashcard tool. The tool
keeps a list of user accounts, each holding named sets of question/answer cards.
Users study a card list in three ways: flip-card review, a graded free-text
test, and a question/answer matching game.

The model covers the sequential state changes inside the app's components.
Each one is a pure function from an event and a state record to the next state:

- `Types` (`types.dfy`): the records `Flashcard`, `FlashcardSet`, `User`,
  `View` and `AppState`, plus the `Array.find`-style lookup of an account by email.
- `Text` (`text.dfy`): JavaScript `trim` (its exact set of white-space and
  line-terminator code points) and `toLowerCase` (on ASCII letters).
- `Repository` (`repository.dfy`): the `users.map(...)` rewrites behind saving,
  deleting, importing and sharing a set.
- `Session` (`session.dfy`): `updateState` as a merge onto the render-time
  snapshot, navigation, save/delete/import at application level, and the
  sign-in screen (sign up, sign in, forgot password).
- `Review` (`review.dfy`): the review cursor, which stops at both ends, and the
  in-place edit of the card under it.
- `TestMode` (`test_mode.dfy`): the Answering / Graded / Finished machine, with
  its grading and score.
- `MatchMode` (`match_mode.dfy`): the selection machine, the question→answer
  map, recorded pairs, the wrong-pair flag, its timer, and win detection.
- `CardView` (`card_view.dfy`): the flip/edit/draft machine of one card.

Inputs the program gets from its environment are explicit parameters:

- A random shuffle is a permutation parameter: a sequence with the same multiset.
- `Date.now()` is a `token` parameter.
- `new Date().toISOString()` is a `createdAt` parameter.
- The one-second `setTimeout` is a `TimerFired` event.
- The card generator's result is a `Generation` value.

Behaviour of the code worth knowing:

- Cancelling an edit does not discard the drafts (`CardView.CancelKeepsDrafts`).
- Saving an edited card on the review screen shows the saved card afresh,
  question side up (`CardView.SaveOnReviewResets`).
- Starting an edit by clicking the pencil icon also flips the card, because the
  click reaches the card's flip handler with a target that is not a button
  (`CardView.EditStartsOnClickedFace`).
- Sharing and importing a set does not round-trip when its name or id is empty
  (`Repository.EmptyNameDoesNotRoundTrip`).
- Signing up does not store the new account (see Findings).
- Saving with no stored account for the signed-in email signs the user out
  instead of doing nothing (`Session.SaveAfterSignUpSignsOut`).
- Pending mismatch timers are not cancelled on reset; a late timer only clears
  the flag.

## Model

| member | source | states |
|---|---|---|
| `Types.FindUser` | App.tsx:182 | the lookup by email returns a stored account with exactly that email, and it is the first such account; it returns nothing iff no account has that email |
| `Text.LeadingSpaces` | components/TestMode.tsx:35-36 | the count of leading characters that `trim` removes: all of them are white space and the next one is not |
| `Text.TrimStart` | components/TestMode.tsx:35-36 | dropping the leading white space leaves the suffix of the input after those characters, and it does not start with white space |
| `Text.TrimEnd` | components/TestMode.tsx:35-36 | dropping the trailing white space leaves a prefix of the input whose cut-off tail is all white space, and it does not end with white space |
| `Text.Trim` | components/TestMode.tsx:33-36 | `trim` yields the infix of the input between the leading and trailing white space, and that infix neither starts nor ends with white space |
| `Text.LowerChar` | components/TestMode.tsx:35-36 | lower-casing leaves no capital ASCII letter, maps letters to letters and keeps every other character |
| `Text.Lower` | components/TestMode.tsx:35-36 | `toLowerCase` keeps the length and lower-cases character by character |
| `Text.TrimIdempotent` | components/TestMode.tsx:35-36 | trimming twice is trimming once |
| `Text.BlankIffAllSpace` | components/TestMode.tsx:33 | an answer counts as empty (`!trim()`) iff every character is white space |
| `Text.NormalizeIdempotent` | components/TestMode.tsx:35-36 | the grading form of a text is its own grading form |
| `Text.CaseAndSpaceIgnored` | components/TestMode.tsx:35-38 | "Paris " and "paris" grade as equal |
| `Text.PunctuationKept` | components/TestMode.tsx:35-38 | "Paris." and "paris" grade as different: punctuation is not stripped |
| `Repository.WithSet` | App.tsx:177 | appending a set keeps the account's email, hash and old sets, and adds the set as the last one |
| `Repository.AddSet` | App.tsx:169-180 | the save rewrite appends the set to every account with the owner's email and leaves all other accounts as they were |
| `Repository.RemoveId` | App.tsx:505 | the filter keeps exactly the sets with another id; with no set carrying the id, nothing changes |
| `Repository.RemoveIdCounts` | App.tsx:505 | every set with another id is kept as many times as it occurs, and none with this id is kept |
| `Repository.RemoveIdAppend` | App.tsx:505 | filtering a concatenation concatenates the filtered parts |
| `Repository.RemoveIdAround` | App.tsx:505 | a kept set keeps its place: after the kept sets that came before it, before the kept sets that came after it |
| `Repository.DeleteSet` | App.tsx:502-510 | deleting touches only accounts with the owner's email; each keeps exactly its sets with another id, in their order |
| `Repository.DeleteAbsentIsNoop` | App.tsx:502-510 | deleting an id that none of the owner's sets carries leaves the account list unchanged |
| `Repository.AddSetAddsOne` | App.tsx:166-180 | with unique emails and a stored owner, a save adds exactly one set across all accounts |
| `Repository.NoOwnerNoChange` | App.tsx:169-180 | when no account has the owner's email, the save rewrite changes nothing |
| `Repository.ImportedId` | App.tsx:528-531 | an imported set keeps its id unless one of the owner's sets already has it; then it gets the fresh token |
| `Repository.ImportSet` | App.tsx:517-535 | a record with an empty or missing id or name, or a non-array `flashcards`, is rejected; otherwise exactly one set is appended to the owner, and other accounts are untouched |
| `Repository.Export` | App.tsx:512-515 | the shared record carries every field of the set: its id, name, cards and creation time |
| `Repository.ExportImportRoundTrip` | App.tsx:512-535 | sharing then importing a set with a non-empty id and name stores a set equal to it; only the id differs, and only when the owner already had that id |
| `Repository.EmptyNameDoesNotRoundTrip` | App.tsx:522 | a shared set with an empty name is rejected on import |
| `Repository.ImportKeepsIdsUnique` | App.tsx:526-535 | if the token is fresh for the owner, importing keeps the owner's set ids distinct |
| `Repository.SaveKeepsIdsUnique` | App.tsx:171-177 | a save whose `Date.now()` token is fresh for the owner keeps the owner's set ids distinct |
| `Session.Merge` | App.tsx:62-64 | `{...state, ...updates}`: every field a write sets takes the written value and every other field keeps the snapshot's |
| `Session.LastWriteInstalled` | App.tsx:52-64 | each `updateState` call installs the render-time snapshot merged with its own write, replacing what the previous call installed; by induction over the calls, the state in the end is the snapshot merged with the last write |
| `Session.Handle` | App.tsx:52-64 | a handler's writes are all built from one snapshot, so the state after it is the snapshot merged with its last write (derived through `Session.LastWriteInstalled`) |
| `Session.MergeLaws` | App.tsx:62-64 | an empty write changes nothing, and repeating a write is harmless |
| `Session.LaterWriteWins` | App.tsx:62-64 | of two writes in one handler, the first is lost wherever the second does not set the same field |
| `Session.Screen` | App.tsx:188-189 | the sign-in screen shows iff nobody is signed in or the view is `auth`; otherwise the view's screen shows |
| `Session.StartsSignedOut` | App.tsx:22-29 | with nothing stored the app starts on the sign-in screen, signed out, with no accounts |
| `Session.Logout` | App.tsx:128-130 | logging out shows the sign-in screen and keeps every account, set and working card |
| `Session.CreateNewSet` | App.tsx:138-140 | "new set" opens the upload view with an empty working list and no edited set, and keeps the accounts and the signed-in user |
| `Session.ShowMySets` | App.tsx:194 | the header button changes only the view, to the set list |
| `Session.StudySet` | App.tsx:202 | studying a set loads its cards as the working list, remembers the set and opens the review view |
| `Session.UpdateCards` | App.tsx:199 | a card edit replaces only the working list |
| `Session.NavigationKeepsAccounts` | App.tsx:128-202 | over any series of sign-outs, new-set, set-list, study, card-edit and file-result events, the accounts and theme never change, and the signed-in account stays unless a sign-out occurs |
| `Session.FileProcessed` | App.tsx:142-164 | a non-empty generated list becomes the working list and opens the review view; an empty one clears the list with the "couldn't generate" message; a failure clears it and shows the error's message or the generic one |
| `Session.SaveSet` | App.tsx:166-184 | saving with nobody signed in or an empty working list changes nothing; otherwise the set list view opens, the new set is appended for the owner, and the current user is re-read from the new list; nothing else (theme, working list, edited set) changes |
| `Session.SaveAppendsOneSet` | App.tsx:166-184 | for a stored owner with unique emails, the owner's sets become the old ones plus the new set. That set holds the working list, the owner stays signed in, other accounts are unchanged, and the total grows by one |
| `Session.FindUniqueUser` | App.tsx:182 | with unique emails, lookup by an account's email finds that account |
| `Session.UsersUpdated` | App.tsx:204-207 | the set list's update installs the new account list and re-reads the current user from it by email; nothing else changes |
| `Session.DeleteSet` | App.tsx:502-510 | deleting from the set list stores the rewritten accounts and re-reads the current user; the view, theme, working list and edited set are unchanged |
| `Session.DeleteOnlyOwner` | App.tsx:502-510 | a delete changes only the current account, which keeps exactly its sets with another id, in their order, and stays signed in; an absent id changes nothing |
| `Session.ImportSet` | App.tsx:517-541 | a malformed record leaves the state unchanged and shows the import error; a valid one stores the imported set, re-reads the current user and changes nothing else |
| `Session.AuthAction` | App.tsx:241-275 | sign-up succeeds iff the passwords match and the email is new; it makes the account `hashed_`+password with no sets. Sign-in succeeds iff the first account with that email has that hash, and it signs in exactly that account. Forgot-password only checks that the email exists. Each failure has its message |
| `Session.SignUpKeepsEmailsUnique` | App.tsx:251-257 | the account list a sign-up builds keeps emails unique |
| `Session.ApplyAuth` | App.tsx:189 | as wired, sign-in and sign-up both only set the current user and open the upload view; the account-list write of a sign-up is overwritten |
| `Session.ChainedAuthWritesPersist` | App.tsx:256-259 | had each write been merged onto the state the previous one left, App.tsx's own sign-up and sign-in writes would give exactly the intended outcome; the lost account comes from building every write on the snapshot |
| `Session.ApplyAuthPersisting` | App.tsx:257-259 | the intended wiring: sign-up stores the built account list together with the new current user |
| `Session.SignUpLosesAccount` | App.tsx:258-259 | as written, a successful sign-up signs the account in but the stored list still lacks its email |
| `Session.SaveAfterSignUpSignsOut` | App.tsx:166-184 | as written, the first save after a sign-up leaves the accounts unchanged and signs the user out |
| `Session.SignUpPersists` | App.tsx:246-263 | with the intended wiring, sign-up stores the account with unique emails and makes it the current user; a later sign-in with the same password succeeds |
| `Session.WrongPasswordAfterSignUp` | App.tsx:246-266 | sign up "a@x.com"/"p1", log out, sign in with "p2": with either wiring, refused with "Invalid email or password." and the sign-in screen stays |
| `Review.Next` | App.tsx:426 | forward moves one card on and stops at the last card; the cursor stays on a card |
| `Review.Prev` | App.tsx:427 | back moves one card back and stops at the first card |
| `Review.Saturates` | App.tsx:426-427 | back from the first card and forward from the last stay put; with one card neither moves |
| `Review.ReplaceAt` | App.tsx:422-424 | an edit replaces the card at the cursor, keeps every other card and keeps the length |
| `Review.ReplaceAtLaws` | App.tsx:422-424 | saving a card unchanged is a no-op; of two saves at one place only the later stays |
| `Review.CursorStaysOnACard` | App.tsx:415-427 | from a cursor on a card, any series of moves and edits keeps the cursor on a card and the list length fixed |
| `Review.EditTouchesOnlyCursor` | App.tsx:199 | an edit saved on the review screen changes only the card at the cursor: the new state is the old one with that one card replaced |
| `TestMode.Start` | components/TestMode.tsx:18-27 | a new card list or a restart gives a shuffled order that is a permutation of the cards. The index and score are 0, it is not finished, and the input and grading are cleared |
| `TestMode.View` | components/TestMode.tsx:68-126 | "No cards to test" shows iff the order is empty; the summary iff the test is finished, with score and total; otherwise the question at the cursor of the shuffled order, with its grade once the answer is shown |
| `TestMode.Type` | components/TestMode.tsx:94-100 | typing changes only the input, and only while the answer box is enabled |
| `TestMode.Submit` | components/TestMode.tsx:31-44 | submitting a blank answer, or when no answer box is shown, changes nothing. Otherwise it grades by trimmed lower-case equality, adds one point iff correct, and reveals the answer |
| `TestMode.Next` | components/TestMode.tsx:46-55 | after grading, before the last card the index moves on and the grading is cleared; on the last card the test finishes with the index unchanged |
| `TestMode.Restart` | components/TestMode.tsx:57-66 | restart is offered on the summary only; it installs the new shuffle and resets score, index, finished, the input and the grading |
| `TestMode.ScoreBounded` | components/TestMode.tsx:76 | in every reachable state the score is at most the number of cards, so the summary never shows more points than cards |
| `TestMode.StepKeepsValid` | components/TestMode.tsx:31-55 | each event keeps the test consistent and the order fixed, and the score never falls and rises by at most one |
| `TestMode.ScoreMonotoneWithinAttempt` | components/TestMode.tsx:31-55 | within one attempt, over any events, the score never falls and never passes the number of cards |
| `TestMode.AnswerOne` | components/TestMode.tsx:31-55 | answering the current card with its own non-blank answer earns one point and leads to the next question, or to the summary after the last |
| `TestMode.AnswerRest` | components/TestMode.tsx:31-55 | answering every remaining card correctly ends finished with a full score |
| `TestMode.AllCorrectScoresTotal` | components/TestMode.tsx:18-85 | a test whose cards have non-blank answers, all answered correctly, ends on the summary n / n (3 / 3 for three cards) |
| `MatchMode.CardMap` | components/MatchMode.tsx:18-22 | the map's keys are exactly the cards' questions, and each goes to the answer of the last card carrying it |
| `MatchMode.Reset` | components/MatchMode.tsx:24-37 | a reset makes both columns permutations of the cards' questions and answers. It clears both selections, the pairs and the flag, and the game is not won |
| `MatchMode.Resolve` | components/MatchMode.tsx:39-54 | with both selections set and non-empty, the pair is recorded iff the map sends the question to the answer; otherwise it is flagged and a timer starts. Both selections are cleared either way |
| `MatchMode.CheckWin` | components/MatchMode.tsx:56-60 | the game becomes won once the cards are non-empty and there are as many matched questions as cards; nothing else changes and it never un-wins |
| `MatchMode.SelectQuestion` | components/MatchMode.tsx:62-65 | picking a question that is matched, flagged or not shown, or picking after the win, changes nothing. Otherwise the question becomes the selection; if a truthy answer is already selected, the pair is resolved at once. It is recorded iff the answer belongs to the question, otherwise flagged, and both selections clear. Won iff as many pairs as cards |
| `MatchMode.SelectAnswer` | components/MatchMode.tsx:67-70 | picking an answer that is matched, flagged or not shown, or picking after the win, changes nothing. Otherwise the answer becomes the selection; if a truthy question is already selected, the pair is resolved at once. It is recorded iff the answer belongs to the question, otherwise flagged, and both selections clear. Won iff as many pairs as cards |
| `MatchMode.Tick` | components/MatchMode.tsx:47-49 | a pending timer firing clears the flag and changes nothing else |
| `MatchMode.ResetIsValid` | components/MatchMode.tsx:24-37 | a fresh game satisfies the game invariant |
| `MatchMode.MatchedTruthiness` | components/MatchMode.tsx:63 | as long as only filled pairs are recorded (true of every valid game), `matchedPairs[q]` is truthy exactly when `q` is matched |
| `MatchMode.SelectionKeepsValid` | components/MatchMode.tsx:39-70 | a selection followed by the pair and win effects keeps the invariant and only adds pairs |
| `MatchMode.StepKeepsValid` | components/MatchMode.tsx:39-70 | every pick and timer event keeps the invariant and the cards, and only adds pairs |
| `MatchMode.MatchedOnlyGrows` | components/MatchMode.tsx:39-70 | between resets the pairs only grow, and each recorded pair q→a has map(q) = a |
| `MatchMode.FlagClearedOnlyByTimer` | components/MatchMode.tsx:44-49 | a raised wrong-pair flag disappears only when a timer fires |
| `MatchMode.BlockedPicksIgnored` | components/MatchMode.tsx:62-70 | picking a matched or flagged question, or a matched or flagged answer, has no effect |
| `MatchMode.PickReplacesSelection` | components/MatchMode.tsx:62-65 | with no answer selected, picking an available question just makes it the selection and replaces the previous one |
| `MatchMode.PickAnswerReplacesSelection` | components/MatchMode.tsx:67-70 | with no question selected, picking an available answer just makes it the selection and replaces the previous one |
| `MatchMode.PickAnswerResolves` | components/MatchMode.tsx:39-54 | picking an answer while a question is selected clears both selections; the pair is recorded exactly when the answer belongs to the question, and otherwise both are flagged |
| `MatchMode.QuestionSetAtMost` | components/MatchMode.tsx:18-22 | there are at most as many distinct questions as cards |
| `MatchMode.QuestionSetDistinct` | components/MatchMode.tsx:18-22 | with distinct questions there are exactly as many as cards |
| `MatchMode.QuestionSetDuplicate` | components/MatchMode.tsx:18-22 | when two cards share a question there are fewer distinct questions than cards |
| `MatchMode.DuplicateQuestionsNeverWin` | components/MatchMode.tsx:56-60 | when two cards share a question the game can never be won |
| `MatchMode.WonIffEveryCardPaired` | components/MatchMode.tsx:39-60 | with distinct questions the game is won iff every card's question is paired with that card's answer |
| `CardView.Show` | components/Flashcard.tsx:16-21 | a new card shows its question side, not editing, with the drafts set to its question and answer |
| `CardView.Flip` | components/Flashcard.tsx:23-31 | a click flips the card only when it lands outside text boxes and buttons and the card is not being edited |
| `CardView.EditButton` | components/Flashcard.tsx:23-67 | the edit button is shown only with the question up and toggles editing. Its click also reaches `handleFlip`: on the pencil icon, shown only while not editing, it turns the card to the answer side; on the bare button it does not |
| `CardView.Step` | components/Flashcard.tsx:33-83 | each control acts only while its face is up and editing is on: the question box on the front, the answer box, Save and Cancel on the back. Save hands over exactly the drafts and leaves edit mode. Cancel leaves edit mode and emits nothing. An event on a control not on screen changes nothing. A click does what `handleFlip` does. Only clicks and the edit button change the face |
| `CardView.OnReview` | App.tsx:420-424 | on the review screen a save replaces the card in the list, so the component shows the saved card afresh; any other event is a plain step |
| `CardView.FaceFixedWhileEditing` | components/Flashcard.tsx:23-31 | while a card is being edited no event turns it |
| `CardView.EditStartsOnClickedFace` | components/Flashcard.tsx:63-65 | starting an edit on a new card leaves the question up when the button is clicked, and turns to the answer side when the icon is clicked |
| `CardView.BareButtonEditCannotSave` | components/Flashcard.tsx:63-83 | an edit started by the bare button keeps the question up, where no Save button is shown, so saving does nothing |
| `CardView.CancelKeepsDrafts` | components/Flashcard.tsx:74-83 | cancel on the answer side emits no update but keeps the drafts: turning back, editing again through the icon and saving commits the earlier drafts |
| `CardView.SaveUnchangedCardIsIdentity` | components/Flashcard.tsx:33-36 | editing through the icon and saving without typing hands back the card as shown |
| `CardView.SaveHandsOverDrafts` | components/Flashcard.tsx:53-83 | typing a question (edit started by the bare button, then left) and an answer (edit started by the icon) and saving hands over exactly those texts, after which the review screen shows the saved card question side up and not editing |
| `CardView.SaveOnReviewResets` | components/Flashcard.tsx:16-21 | after any save on the review screen the card is question side up, out of edit mode, with drafts equal to the saved texts |

## Left out

- Text extraction from files (`extractTextFromFile`: FileReader, pdf.js, XLSX) is I/O.
- The generative-AI card service (services/geminiService.ts) is a foreign API.
  Its result enters `Session.FileProcessed` as a `Generation` parameter.
- Loading and saving the snapshot in localStorage is persistence I/O, along with
  its try/catch and JSON encoding. `updateState` is modelled only as the merge
  it performs.
- `JSON.parse`/`JSON.stringify` for import and share are foreign serialisation.
  Import starts from an already-parsed record.
- `Repository.ImportSet`: a parsed `id` or `name` of a JSON type other than
  string is not modelled. Neither is a `flashcards` array holding non-card
  values. A missing `createdAt` is read as a plain string.
- `Repository.ImportSet`: with several accounts sharing the owner's email, the
  source appends one shared object to each and mutates its id in place. The
  model rewrites the id per account. Sign-up keeps emails unique, so this
  does not arise.
- The asynchronous ordering of file processing and its loading flag are
  concurrency and I/O. The loading overlay hides every control until the
  handler ends, so the model applies both of its writes at completion.
  Choosing no file, which returns early, is not modelled.
- components/IconComponents.tsx is not part of this model. `CardView.EditButton`
  assumes the pencil icon renders as an element that is not a button (an SVG),
  so a click on it passes the flip handler's target test.
- Theme toggling, DOM class writes, drag and drop, rendering, CSS,
  components/Loader.tsx and the injected style element are UI only.
- The demo Google sign-in alert, the show-password toggle and the switching
  between sign-in/sign-up/forgot forms are UI only.
- The save dialog of the review screen, which offers "Save" only for a
  non-blank name, is UI only. `Session.SaveSet` takes the name as given.
- `CardView.Step`: both faces stay in the page, and the one turned away is
  hidden only by the 3D transform. Reaching a hidden face's text box or button
  with the keyboard is not modelled. A click is taken to reach only the face
  that is up.
- `Session.AuthAction`: the form's `required` fields and `type="email"` box
  (App.tsx:296, 299, 305) stop an empty or malformed email and an empty
  password before the handler runs. Browser form validation is not modelled,
  so the model accepts any strings.
- Switching between study, test and match tabs is UI only. So is the
  remounting that resets the review cursor when the view changes.
- `Text.Lower` and `Text.LowerChar`: `toLowerCase` is modelled on ASCII letters only. Full Unicode
  case mapping is not modelled.
- `MatchMode.SelectQuestion`: `matchedPairs` is a plain object, so a question
  named like an `Object.prototype` member (such as "constructor") reads as
  matched in the source. The model treats every text as an ordinary key.
- Shuffles from `Math.random` comparators are not modelled as an algorithm.
  Any permutation is accepted as the shuffle parameter.

## Findings

| source | as written | input that shows it | evidently intended | confidence | as-written member | corrected member |
|---|---|---|---|---|---|---|
| App.tsx:258-259 | sign-up calls `onUsersUpdate(newUsers)` and then `onAuthSuccess(newUser)`. Each is an `updateState` merge onto the same render-time snapshot, so the second write restores the old `users` list | any sign-up with matching passwords and a new email, for example "a@x.com"/"p1" on an empty account list | the new account is stored and signed in; a later save keeps the user signed in and stores the set | high (not executed) | `Session.ApplyAuth` with `Session.SignUpLosesAccount` and `Session.SaveAfterSignUpSignsOut` | `Session.ApplyAuthPersisting` with `Session.SignUpPersists` |

=== FILE: card_view.dfy ===
/** The single card of the review screen (components/Flashcard.tsx): it flips
    between question and answer, and an edit mode keeps draft texts that
    "Save" hands to the review screen as the replacement card. */
module CardView {
  import opened Types

  /** The component's state: which face is up, whether the drafts are being
      edited, and the draft question and answer. */
  datatype CardState = CardState(flipped: bool, editing: bool, draftQuestion: string, draftAnswer: string)

  /** What a click on the card landed on. */
  datatype Target = TextArea | Button | Elsewhere

  /** `ToggleEdit(onIcon)` is a click on the edit button; `onIcon` says it landed
      on the pencil icon the button holds while not editing rather than on the
      button itself. */
  datatype CardEvent =
    | Click(target: Target)
    | ToggleEdit(onIcon: bool)
    | TypeQuestion(text: string)
    | TypeAnswer(text: string)
    | Save
    | Cancel

  /** The state for a card just shown, and the reset the component performs
      whenever it is given a different card. */
  function Show(card: Flashcard): (c: CardState)
    ensures !c.flipped && !c.editing
    ensures c.draftQuestion == card.question && c.draftAnswer == card.answer
  {
    CardState(false, false, card.question, card.answer)
  }

  /** `handleFlip`: clicks on a text box or a button never flip the card, and
      neither does any click while editing. */
  function Flip(c: CardState, t: Target): (r: CardState)
    ensures !t.Elsewhere? || c.editing ==> r == c
    ensures t.Elsewhere? && !c.editing ==> r == c.(flipped := !c.flipped)
  {
    if t == TextArea || t == Button then c
    else if !c.editing then c.(flipped := !c.flipped)
    else c
  }

  /** The edit button, shown only while the question is up. Its click also
      bubbles to the card's `handleFlip`, which reads the state from before the
      click: a click on the button itself is ignored there, but one on the icon
      (shown only while not editing) is not, so it turns the card to its answer
      side as editing starts. */
  function EditButton(c: CardState, onIcon: bool): (r: CardState)
    ensures c.flipped ==> r == c
    ensures !c.flipped ==> r.editing == !c.editing
    ensures !c.flipped ==> (r.flipped <==> onIcon && !c.editing)
    ensures r.draftQuestion == c.draftQuestion && r.draftAnswer == c.draftAnswer
  {
    if c.flipped then c
    else
      var target := if onIcon && !c.editing then Elsewhere else Button;
      Flip(c, target).(editing := !c.editing)
  }

  /** The question text box is on the front; the answer text box and the Save
      and Cancel buttons are on the back. Each is rendered only while editing,
      and only the face that is up can be reached. */
  predicate QuestionFaceEditable(c: CardState) { c.editing && !c.flipped }
  predicate AnswerFaceEditable(c: CardState) { c.editing && c.flipped }

  /** One event: the new state and the card handed to `onUpdate`, if any.
      An event on a control that is not on screen does nothing, and clicks on
      the controls never flip the card. */
  function Step(c: CardState, e: CardEvent): (r: (CardState, Option<Flashcard>))
    ensures !e.Save? ==> r.1.None?
    ensures e.Click? ==> r.0 == Flip(c, e.target)
    ensures e.Save? ==> (r.1.Some? <==> AnswerFaceEditable(c))
    ensures e.Save? && AnswerFaceEditable(c) ==>
              r.1 == Some(Flashcard(c.draftQuestion, c.draftAnswer)) && r.0 == c.(editing := false)
    ensures e.Cancel? && AnswerFaceEditable(c) ==> r.0 == c.(editing := false)
    ensures e.TypeQuestion? && QuestionFaceEditable(c) ==> r.0 == c.(draftQuestion := e.text)
    ensures e.TypeAnswer? && AnswerFaceEditable(c) ==> r.0 == c.(draftAnswer := e.text)
    ensures e.ToggleEdit? ==> r.0 == EditButton(c, e.onIcon)
    ensures e.TypeQuestion? && !QuestionFaceEditable(c) ==> r.0 == c
    ensures (e.TypeAnswer? || e.Save? || e.Cancel?) && !AnswerFaceEditable(c) ==> r.0 == c
    ensures !e.Click? && !e.ToggleEdit? ==> r.0.flipped == c.flipped
  {
    match e
    case Click(t) => (Flip(c, t), None)
    case ToggleEdit(onIcon) => (EditButton(c, onIcon), None)
    case TypeQuestion(text) => (if QuestionFaceEditable(c) then c.(draftQuestion := text) else c, None)
    case TypeAnswer(text) => (if AnswerFaceEditable(c) then c.(draftAnswer := text) else c, None)
    case Save =>
      if AnswerFaceEditable(c) then (c.(editing := false), Some(Flashcard(c.draftQuestion, c.draftAnswer)))
      else (c, None)
    case Cancel => (if AnswerFaceEditable(c) then c.(editing := false) else c, None)
  }

  /** One event on the review screen. A saved card replaces the current one in
      the list, so the component is handed a new card object and its reset
      effect shows that card afresh; any other event is a plain `Step`. */
  function OnReview(c: CardState, e: CardEvent): (r: (CardState, Option<Flashcard>))
    ensures r.1 == Step(c, e).1
    ensures r.1.Some? ==> r.0 == Show(r.1.value)
    ensures r.1.None? ==> r.0 == Step(c, e).0
  {
    var (next, saved) := Step(c, e);
    if saved.Some? then (Show(saved.value), saved) else (next, saved)
  }

  /** While the card is being edited no event turns it: clicks are ignored by
      `handleFlip`, and the edit button is either hidden (answer side up) or
      holds no icon. */
  lemma FaceFixedWhileEditing(c: CardState, e: CardEvent)
    requires c.editing
    ensures Step(c, e).0.flipped == c.flipped
  {
  }

  /** Editing starts with the question up when the button itself is clicked,
      and with the answer up (its text box and the Save and Cancel buttons in
      view) when the click lands on the icon. */
  lemma EditStartsOnClickedFace(card: Flashcard, onIcon: bool)
    ensures var c := Step(Show(card), ToggleEdit(onIcon)).0;
            c.editing && c.flipped == onIcon
  {
  }

  /** Editing started by the button itself keeps the question up, where no
      Save button is shown: nothing can be saved until the answer is up. */
  lemma BareButtonEditCannotSave(card: Flashcard)
    ensures var c := Step(Show(card), ToggleEdit(false)).0;
            c.editing && Step(c, Save).1.None?
  {
  }

  /** Cancel (on the answer side) emits nothing but keeps the drafts: turning
      back to the question, entering edit mode through the icon and saving
      hands over the texts typed before the cancel. */
  lemma CancelKeepsDrafts(c: CardState)
    requires AnswerFaceEditable(c)
    ensures var afterCancel := Step(c, Cancel);
            var front := Step(afterCancel.0, Click(Elsewhere)).0;
            var again := Step(front, ToggleEdit(true)).0;
            && afterCancel.1.None? && !afterCancel.0.editing
            && Step(again, Save).1 == Some(Flashcard(c.draftQuestion, c.draftAnswer))
  {
  }

  /** Editing through the icon then saving without typing hands back the card
      as shown. */
  lemma SaveUnchangedCardIsIdentity(card: Flashcard)
    ensures var editing := Step(Show(card), ToggleEdit(true)).0;
            Step(editing, Save).1 == Some(card)
  {
  }

  /** Both texts can be replaced: the question is typed in an edit started by
      the button itself, which is left again; the answer in an edit started by
      the icon; Save hands over exactly those texts, and the review screen then
      shows the saved card question side up and out of edit mode. */
  lemma SaveHandsOverDrafts(card: Flashcard, q: string, a: string)
    ensures var front := Step(Step(Show(card), ToggleEdit(false)).0, TypeQuestion(q)).0;
            var back := Step(Step(front, ToggleEdit(false)).0, ToggleEdit(true)).0;
            var saved := OnReview(Step(back, TypeAnswer(a)).0, Save);
            && saved.1 == Some(Flashcard(q, a))
            && saved.0 == Show(Flashcard(q, a))
            && !saved.0.flipped && !saved.0.editing
  {
  }

  /** After any save on the review screen the card is question side up, out of
      edit mode, with drafts equal to the saved texts. */
  lemma SaveOnReviewResets(c: CardState)
    requires AnswerFaceEditable(c)
    ensures var r := OnReview(c, Save);
            && r.1 == Some(Flashcard(c.draftQuestion, c.draftAnswer))
            && !r.0.flipped && !r.0.editing
            && r.0.draftQuestion == c.draftQuestion && r.0.draftAnswer == c.draftAnswer
  {
  }
}

=== FILE: match_mode.dfy ===
/** The matching game (components/MatchMode.tsx): a shuffled column of
    questions and one of answers; picking one of each either records the pair
    or flags it as wrong until a one-second timer clears the flag. Items are
    identified by their text, and an empty text counts as "nothing" wherever
    the component tests a value for truthiness. */
module MatchMode {
  import opened Types

  function Questions(cards: seq<Flashcard>): (r: seq<string>)
    ensures |r| == |cards| && forall i :: 0 <= i < |cards| ==> r[i] == cards[i].question
  {
    seq(|cards|, i requires 0 <= i < |cards| => cards[i].question)
  }

  function Answers(cards: seq<Flashcard>): (r: seq<string>)
    ensures |r| == |cards| && forall i :: 0 <= i < |cards| ==> r[i] == cards[i].answer
  {
    seq(|cards|, i requires 0 <= i < |cards| => cards[i].answer)
  }

  /** The distinct question texts of a card list. */
  function QuestionSet(cards: seq<Flashcard>): set<string>
  {
    set i | 0 <= i < |cards| :: cards[i].question
  }

  /** No later card carries the question of card `i`. */
  predicate LastWithQuestion(cards: seq<Flashcard>, i: int)
    requires 0 <= i < |cards|
  {
    forall j :: i < j < |cards| ==> cards[j].question != cards[i].question
  }

  /** `cardMap`: each question text to the answer of the last card carrying it. */
  function CardMap(cards: seq<Flashcard>): (m: map<string, string>)
    ensures m.Keys == QuestionSet(cards)
    ensures forall i :: 0 <= i < |cards| && LastWithQuestion(cards, i) ==>
              cards[i].question in m && m[cards[i].question] == cards[i].answer
    decreases |cards|
  {
    if |cards| == 0 then map[]
    else
      var init := cards[..|cards| - 1];
      var last := cards[|cards| - 1];
      var prev := CardMap(init);
      CardMapStep(cards, prev);
      prev[last.question := last.answer]
  }

  /** The step of `cardMap`'s loop: setting the last card's pair in a map that
      is right for the cards before it gives a map that is right for them all. */
  lemma CardMapStep(cards: seq<Flashcard>, prev: map<string, string>)
    requires |cards| > 0
    requires prev.Keys == QuestionSet(cards[..|cards| - 1])
    requires forall i :: 0 <= i < |cards| - 1 && LastWithQuestion(cards[..|cards| - 1], i) ==>
               cards[i].question in prev && prev[cards[i].question] == cards[i].answer
    ensures var m := prev[cards[|cards| - 1].question := cards[|cards| - 1].answer];
            && m.Keys == QuestionSet(cards)
            && forall i :: 0 <= i < |cards| && LastWithQuestion(cards, i) ==>
                 cards[i].question in m && m[cards[i].question] == cards[i].answer
  {
    var n := |cards| - 1;
    var init := cards[..n];
    var m := prev[cards[n].question := cards[n].answer];
    QuestionSetSnoc(cards);
    forall i | 0 <= i < |cards| && LastWithQuestion(cards, i)
      ensures cards[i].question in m && m[cards[i].question] == cards[i].answer
    {
      if i < n {
        assert cards[n].question != cards[i].question;
        assert init[i] == cards[i];
        assert LastWithQuestion(init, i) by {
          forall j | i < j < |init| ensures init[j].question != init[i].question {
            assert init[j] == cards[j];
          }
        }
      }
    }
  }

  /** The questions of a list are those of all but its last card plus the last card's. */
  lemma QuestionSetSnoc(cards: seq<Flashcard>)
    requires |cards| > 0
    ensures QuestionSet(cards) == QuestionSet(cards[..|cards| - 1]) + {cards[|cards| - 1].question}
  {
    var init := cards[..|cards| - 1];
    forall q | q in QuestionSet(cards) ensures q in QuestionSet(init) + {cards[|cards| - 1].question} {
      var i :| 0 <= i < |cards| && cards[i].question == q;
      if i < |cards| - 1 { assert init[i] == cards[i]; }
    }
    forall q | q in QuestionSet(init) ensures q in QuestionSet(cards) {
      var i :| 0 <= i < |init| && init[i].question == q;
      assert cards[i] == init[i];
    }
  }

  /** The game's state; `timers` counts the clear-the-flag timers not yet fired. */
  datatype Matching = Matching(
    cards: seq<Flashcard>,
    questions: seq<string>,
    answers: seq<string>,
    selectedQuestion: Option<string>,
    selectedAnswer: Option<string>,
    matched: map<string, string>,
    incorrect: seq<string>,
    timers: nat,
    won: bool)

  /** `resetGame`, run for a new card list and by "Play Again": `shuffledQuestions`
      and `shuffledAnswers` are the orders the random sorts produced. Timers
      still pending are not cancelled. */
  function Reset(cards: seq<Flashcard>, timers: nat, shuffledQuestions: seq<string>, shuffledAnswers: seq<string>): (m: Matching)
    requires multiset(shuffledQuestions) == multiset(Questions(cards))
    requires multiset(shuffledAnswers) == multiset(Answers(cards))
    ensures m.cards == cards && m.timers == timers
    ensures multiset(m.questions) == multiset(Questions(cards))
    ensures multiset(m.answers) == multiset(Answers(cards))
    ensures m.selectedQuestion.None? && m.selectedAnswer.None?
    ensures m.matched == map[] && m.incorrect == [] && !m.won
  {
    Matching(cards, shuffledQuestions, shuffledAnswers, None, None, map[], [], timers, false)
  }

  /** `matchedPairs[q]` is truthy. */
  predicate IsMatchedQuestion(m: Matching, q: string)
  {
    q in m.matched && m.matched[q] != ""
  }

  /** The pair-resolution effect: once both selections are truthy the pair is
      recorded when `cardMap` sends the question to the answer, and flagged
      (with a timer started) otherwise; both selections are cleared either way. */
  function Resolve(m: Matching): (r: Matching)
    ensures !(Truthy(m.selectedQuestion) && Truthy(m.selectedAnswer)) ==> r == m
    ensures Truthy(m.selectedQuestion) && Truthy(m.selectedAnswer) ==>
              var q := m.selectedQuestion.value;
              var a := m.selectedAnswer.value;
              var cm := CardMap(m.cards);
              && r.selectedQuestion.None? && r.selectedAnswer.None?
              && r.cards == m.cards && r.questions == m.questions && r.answers == m.answers && r.won == m.won
              && (q in cm && cm[q] == a ==>
                    r.matched == m.matched[q := a] && r.incorrect == m.incorrect && r.timers == m.timers)
              && (!(q in cm && cm[q] == a) ==>
                    r.matched == m.matched && r.incorrect == [q, a] && r.timers == m.timers + 1)
  {
    if Truthy(m.selectedQuestion) && Truthy(m.selectedAnswer) then
      var q := m.selectedQuestion.value;
      var a := m.selectedAnswer.value;
      var cm := CardMap(m.cards);
      if q in cm && cm[q] == a then
        m.(matched := m.matched[q := a], selectedQuestion := None, selectedAnswer := None)
      else
        m.(incorrect := [q, a], timers := m.timers + 1, selectedQuestion := None, selectedAnswer := None)
    else m
  }

  /** The win effect: the game is won once the cards are not empty and there
      are as many matched questions as cards. It never un-wins. */
  function CheckWin(m: Matching): (r: Matching)
    ensures r.won <==> m.won || (|m.cards| > 0 && |m.matched.Keys| == |m.cards|)
    ensures r.(won := m.won) == m
  {
    if |m.cards| > 0 && |m.matched.Keys| == |m.cards| then m.(won := true) else m
  }

  /** `cardMap.get(q) === a`: the answer `a` belongs to the question `q`. */
  predicate IsPair(cards: seq<Flashcard>, q: string, a: string)
  {
    q in CardMap(cards) && CardMap(cards)[q] == a
  }

  /** A question that cannot be picked: the game is over, it is not in the
      column, it is already matched, or it is flagged. */
  predicate QuestionBlocked(m: Matching, q: string)
  {
    m.won || q !in m.questions || IsMatchedQuestion(m, q) || q in m.incorrect
  }

  /** An answer that cannot be picked: the game is over, it is not in the
      column, it is already matched, or it is flagged. */
  predicate AnswerBlocked(m: Matching, a: string)
  {
    m.won || a !in m.answers || a in m.matched.Values || a in m.incorrect
  }

  /** `handleSelectQuestion` followed by the pair and win effects. A blocked
      question is ignored. Otherwise it becomes the selection; when an answer
      is already selected and both are truthy, the pair is resolved at once. */
  function SelectQuestion(m: Matching, q: string): (r: Matching)
    ensures QuestionBlocked(m, q) ==> r == m
    ensures r.cards == m.cards && r.questions == m.questions && r.answers == m.answers
    ensures !QuestionBlocked(m, q) && !(q != "" && Truthy(m.selectedAnswer)) ==>
              && r.selectedQuestion == Some(q) && r.selectedAnswer == m.selectedAnswer
              && r.matched == m.matched && r.incorrect == m.incorrect && r.timers == m.timers
    ensures !QuestionBlocked(m, q) && q != "" && Truthy(m.selectedAnswer) ==>
              var a := m.selectedAnswer.value;
              && r.selectedQuestion.None? && r.selectedAnswer.None?
              && (IsPair(m.cards, q, a) ==>
                    r.matched == m.matched[q := a] && r.incorrect == m.incorrect && r.timers == m.timers)
              && (!IsPair(m.cards, q, a) ==>
                    r.matched == m.matched && r.incorrect == [q, a] && r.timers == m.timers + 1)
    ensures !QuestionBlocked(m, q) ==> (r.won <==> |m.cards| > 0 && |r.matched.Keys| == |m.cards|)
  {
    if QuestionBlocked(m, q) then m
    else CheckWin(Resolve(m.(selectedQuestion := Some(q))))
  }

  /** `handleSelectAnswer` followed by the pair and win effects, the mirror
      image of `SelectQuestion`. */
  function SelectAnswer(m: Matching, a: string): (r: Matching)
    ensures AnswerBlocked(m, a) ==> r == m
    ensures r.cards == m.cards && r.questions == m.questions && r.answers == m.answers
    ensures !AnswerBlocked(m, a) && !(a != "" && Truthy(m.selectedQuestion)) ==>
              && r.selectedAnswer == Some(a) && r.selectedQuestion == m.selectedQuestion
              && r.matched == m.matched && r.incorrect == m.incorrect && r.timers == m.timers
    ensures !AnswerBlocked(m, a) && a != "" && Truthy(m.selectedQuestion) ==>
              var q := m.selectedQuestion.value;
              && r.selectedQuestion.None? && r.selectedAnswer.None?
              && (IsPair(m.cards, q, a) ==>
                    r.matched == m.matched[q := a] && r.incorrect == m.incorrect && r.timers == m.timers)
              && (!IsPair(m.cards, q, a) ==>
                    r.matched == m.matched && r.incorrect == [q, a] && r.timers == m.timers + 1)
    ensures !AnswerBlocked(m, a) ==> (r.won <==> |m.cards| > 0 && |r.matched.Keys| == |m.cards|)
  {
    if AnswerBlocked(m, a) then m
    else CheckWin(Resolve(m.(selectedAnswer := Some(a))))
  }

  /** One pending one-second timer fires and clears the wrong-pair flag. */
  function Tick(m: Matching): (r: Matching)
    ensures m.timers == 0 ==> r == m
    ensures m.timers > 0 ==> r.incorrect == [] && r.timers == m.timers - 1
    ensures r.(incorrect := m.incorrect, timers := m.timers) == m
  {
    if m.timers == 0 then m else m.(incorrect := [], timers := m.timers - 1)
  }

  datatype Event = PickQuestion(q: string) | PickAnswer(a: string) | TimerFired

  function Step(m: Matching, e: Event): Matching
  {
    match e
    case PickQuestion(q) => SelectQuestion(m, q)
    case PickAnswer(a) => SelectAnswer(m, a)
    case TimerFired => Tick(m)
  }

  function Run(m: Matching, events: seq<Event>): Matching
    decreases |events|
  {
    if |events| == 0 then m else Run(Step(m, events[0]), events[1..])
  }

  /** `m` is contained in `n`: every pair of `m` is a pair of `n`. */
  predicate SubMap(m: map<string, string>, n: map<string, string>)
  {
    forall q :: q in m ==> q in n && n[q] == m[q]
  }

  /** Every recorded pair joins a non-empty question to a non-empty answer. */
  predicate Filled(matched: map<string, string>)
  {
    forall q :: q in matched ==> q != "" && matched[q] != ""
  }

  /** What holds between events: every recorded pair agrees with `cardMap` and
      is filled, no two truthy selections are left waiting, and the game is
      won exactly when there are as many pairs as cards. */
  predicate Valid(m: Matching)
  {
    && SubMap(m.matched, CardMap(m.cards))
    && Filled(m.matched)
    && !(Truthy(m.selectedQuestion) && Truthy(m.selectedAnswer))
    && (m.won <==> |m.cards| > 0 && |m.matched.Keys| == |m.cards|)
  }

  /** A fresh game is valid. */
  lemma ResetIsValid(cards: seq<Flashcard>, timers: nat, sq: seq<string>, sa: seq<string>)
    requires multiset(sq) == multiset(Questions(cards)) && multiset(sa) == multiset(Answers(cards))
    ensures Valid(Reset(cards, timers, sq, sa))
  {
  }

  /** Since only filled pairs are ever recorded, `matchedPairs[q]` is truthy
      exactly when `q` has been matched. */
  lemma MatchedTruthiness(m: Matching, q: string)
    requires Filled(m.matched)
    ensures IsMatchedQuestion(m, q) <==> q in m.matched
  {
  }

  /** A selection followed by the two effects keeps the game valid and only adds pairs. */
  lemma {:induction false} SelectionKeepsValid(m: Matching, s: Matching)
    requires Valid(m) && !m.won
    requires s == m.(selectedQuestion := s.selectedQuestion, selectedAnswer := s.selectedAnswer)
    requires !Truthy(s.selectedQuestion) || !Truthy(s.selectedAnswer) ==> Valid(s)
    ensures var r := CheckWin(Resolve(s));
            Valid(r) && SubMap(m.matched, r.matched) && r.cards == m.cards
  {
    var r0 := Resolve(s);
    var cm := CardMap(m.cards);
    if Truthy(s.selectedQuestion) && Truthy(s.selectedAnswer) {
      var q := s.selectedQuestion.value;
      var a := s.selectedAnswer.value;
      if q in cm && cm[q] == a {
        assert r0.matched == m.matched[q := a];
        assert SubMap(r0.matched, cm);
      }
    }
  }

  /** Every event keeps the game valid, keeps the cards and columns, and only
      adds pairs. */
  lemma StepKeepsValid(m: Matching, e: Event)
    requires Valid(m)
    ensures var r := Step(m, e);
            Valid(r) && SubMap(m.matched, r.matched) && r.cards == m.cards
  {
    match e
    case PickQuestion(q) =>
      if !QuestionBlocked(m, q) {
        SelectionKeepsValid(m, m.(selectedQuestion := Some(q)));
      }
    case PickAnswer(a) =>
      if !AnswerBlocked(m, a) {
        SelectionKeepsValid(m, m.(selectedAnswer := Some(a)));
      }
    case TimerFired =>
  }

  /** Between resets the pairs only grow and always agree with `cardMap`. */
  lemma {:induction false} MatchedOnlyGrows(m: Matching, events: seq<Event>)
    requires Valid(m)
    ensures var r := Run(m, events);
            Valid(r) && SubMap(m.matched, r.matched) && SubMap(r.matched, CardMap(m.cards))
    decreases |events|
  {
    if |events| > 0 {
      StepKeepsValid(m, events[0]);
      MatchedOnlyGrows(Step(m, events[0]), events[1..]);
    }
  }

  /** A wrong-pair flag, once raised, disappears only when a timer fires: picks
      either leave it or replace it by the newest wrong pair. */
  lemma FlagClearedOnlyByTimer(m: Matching, e: Event)
    requires m.incorrect != [] && Step(m, e).incorrect == []
    ensures e.TimerFired?
  {
  }

  /** Picking a question that is matched or flagged, or an answer that is
      matched or flagged, changes nothing. */
  lemma BlockedPicksIgnored(m: Matching, x: string)
    requires Filled(m.matched)
    ensures x in m.matched || x in m.incorrect ==> Step(m, PickQuestion(x)) == m
    ensures x in m.matched.Values || x in m.incorrect ==> Step(m, PickAnswer(x)) == m
  {
  }

  /** Picking a shown question while no answer is selected only selects it,
      replacing any earlier question selection. */
  lemma PickReplacesSelection(m: Matching, q: string)
    requires Valid(m) && !m.won && q in m.questions && q !in m.matched && q !in m.incorrect
    requires !Truthy(m.selectedAnswer)
    ensures Step(m, PickQuestion(q)) == m.(selectedQuestion := Some(q))
  {
  }

  /** Picking a shown answer while no question is selected only selects it,
      replacing any earlier answer selection. */
  lemma PickAnswerReplacesSelection(m: Matching, a: string)
    requires Valid(m) && !m.won && a in m.answers && a !in m.matched.Values && a !in m.incorrect
    requires !Truthy(m.selectedQuestion)
    ensures Step(m, PickAnswer(a)) == m.(selectedAnswer := Some(a))
  {
  }

  /** Picking a truthy answer while a truthy question is selected resolves the
      pair at once: both selections clear, and the pair is recorded exactly
      when the answer belongs to the question; otherwise both are flagged. */
  lemma PickAnswerResolves(m: Matching, a: string)
    requires !AnswerBlocked(m, a) && a != "" && Truthy(m.selectedQuestion)
    ensures var r := Step(m, PickAnswer(a));
            var q := m.selectedQuestion.value;
            && r.selectedQuestion.None? && r.selectedAnswer.None?
            && (q in r.matched && r.matched[q] == a && r.incorrect == m.incorrect <==> IsPair(m.cards, q, a))
            && (!IsPair(m.cards, q, a) ==> r.matched == m.matched && r.incorrect == [q, a])
  {
  }

  /** No two cards carry the same question. */
  predicate DistinctQuestions(cards: seq<Flashcard>)
  {
    forall i, j :: 0 <= i < j < |cards| ==> cards[i].question != cards[j].question
  }

  /** There are at most as many distinct questions as cards. */
  lemma {:induction false} QuestionSetAtMost(cards: seq<Flashcard>)
    ensures |QuestionSet(cards)| <= |cards|
    decreases |cards|
  {
    if |cards| > 0 {
      QuestionSetAtMost(cards[..|cards| - 1]);
      QuestionSetSnoc(cards);
    }
  }

  /** With pairwise distinct questions there are exactly as many as cards. */
  lemma {:induction false} QuestionSetDistinct(cards: seq<Flashcard>)
    requires DistinctQuestions(cards)
    ensures |QuestionSet(cards)| == |cards|
    decreases |cards|
  {
    if |cards| > 0 {
      var n := |cards| - 1;
      var init := cards[..n];
      assert DistinctQuestions(init) by {
        forall i, j | 0 <= i < j < |init| ensures init[i].question != init[j].question {
          assert init[i] == cards[i] && init[j] == cards[j];
        }
      }
      QuestionSetDistinct(init);
      QuestionSetSnoc(cards);
      assert cards[n].question !in QuestionSet(init);
    }
  }

  /** When two cards share a question there are fewer distinct questions than cards. */
  lemma {:induction false} QuestionSetDuplicate(cards: seq<Flashcard>, i: nat, j: nat)
    requires i < j < |cards| && cards[i].question == cards[j].question
    ensures |QuestionSet(cards)| < |cards|
    decreases |cards|
  {
    var n := |cards| - 1;
    var init := cards[..n];
    QuestionSetSnoc(cards);
    assert init[i] == cards[i];
    if j == n {
      assert cards[n].question in QuestionSet(init);
      QuestionSetAtMost(init);
    } else {
      assert init[j] == cards[j];
      QuestionSetDuplicate(init, i, j);
    }
  }

  /** When two cards share a question the game can never be won: the pairs are
      keyed by question text, so there are fewer possible pairs than cards. */
  lemma DuplicateQuestionsNeverWin(m: Matching, i: nat, j: nat)
    requires Valid(m)
    requires i < j < |m.cards| && m.cards[i].question == m.cards[j].question
    ensures !m.won
  {
    QuestionSetDuplicate(m.cards, i, j);
    var cm := CardMap(m.cards);
    assert m.matched.Keys <= cm.Keys;
    SubsetSize(m.matched.Keys, cm.Keys);
  }

  /** A subset is no larger than its superset, and one as large is the superset. */
  lemma {:induction false} SubsetSize(a: set<string>, b: set<string>)
    requires a <= b
    ensures |a| <= |b|
    ensures |a| == |b| ==> a == b
    decreases |a|
  {
    if a != {} {
      var x :| x in a;
      SubsetSize(a - {x}, b - {x});
      if |a| == |b| {
        assert a == (a - {x}) + {x};
        assert b == (b - {x}) + {x};
      }
    } else if |b| == 0 {
      assert b == {};
    }
  }

  /** With pairwise distinct questions the game is won exactly when every card's
      question has been paired with that card's answer. */
  lemma WonIffEveryCardPaired(m: Matching)
    requires Valid(m) && |m.cards| > 0
    requires DistinctQuestions(m.cards)
    ensures m.won <==> forall i :: 0 <= i < |m.cards| ==>
                         m.cards[i].question in m.matched && m.matched[m.cards[i].question] == m.cards[i].answer
  {
    var cm := CardMap(m.cards);
    QuestionSetDistinct(m.cards);
    SubsetSize(m.matched.Keys, cm.Keys);
    if m.won {
      forall i | 0 <= i < |m.cards|
        ensures m.cards[i].question in m.matched && m.matched[m.cards[i].question] == m.cards[i].answer
      {
        assert m.cards[i].question in cm.Keys;
      }
    }
    if forall i :: 0 <= i < |m.cards| ==> m.cards[i].question in m.matched {
      assert cm.Keys <= m.matched.Keys;
      SubsetSize(cm.Keys, m.matched.Keys);
    }
  }
}

=== FILE: repository.dfy ===
/** The set repository of App.tsx: the `users.map(...)` rewrites behind saving,
    deleting and importing a set. Each takes the whole account list and the
    owner's email and returns the new account list; only accounts whose email
    is exactly the owner's are touched. */
module Repository {
  import opened Types

  /** The account with one more set at the end of its list. */
  function WithSet(u: User, s: FlashcardSet): (r: User)
    ensures r.email == u.email && r.passwordHash == u.passwordHash
    ensures |r.sets| == |u.sets| + 1 && r.sets[..|u.sets|] == u.sets && r.sets[|u.sets|] == s
  {
    u.(sets := u.sets + [s])
  }

  /** Appends `s` to the sets of every account whose email is `email`. */
  function AddSet(users: seq<User>, email: string, s: FlashcardSet): (r: seq<User>)
    ensures |r| == |users|
    ensures forall i :: 0 <= i < |users| && users[i].email != email ==> r[i] == users[i]
    ensures forall i :: 0 <= i < |users| && users[i].email == email ==> r[i] == WithSet(users[i], s)
  {
    seq(|users|, i requires 0 <= i < |users| =>
      if users[i].email == email then WithSet(users[i], s) else users[i])
  }

  /** `sets.filter(s => s.id !== id)`: the sets with another id, in their
      order. How often each is kept is stated by `RemoveIdCounts`, and the
      order by `RemoveIdAppend` and `RemoveIdAround`. */
  function RemoveId(sets: seq<FlashcardSet>, id: string): (r: seq<FlashcardSet>)
    ensures |r| <= |sets|
    ensures forall s :: s in r <==> s in sets && s.id != id
    ensures id !in SetIds(sets) ==> r == sets
  {
    if |sets| == 0 then []
    else
      var rest := RemoveId(sets[1..], id);
      assert sets == [sets[0]] + sets[1..];
      if sets[0].id == id then rest else [sets[0]] + rest
  }

  /** Every set with another id is kept exactly as many times as it occurs,
      and no set with this id is kept. */
  lemma {:induction false} RemoveIdCounts(sets: seq<FlashcardSet>, id: string)
    ensures forall s :: multiset(RemoveId(sets, id))[s] == if s.id == id then 0 else multiset(sets)[s]
    decreases |sets|
  {
    if |sets| > 0 {
      RemoveIdCounts(sets[1..], id);
      assert sets == [sets[0]] + sets[1..];
      assert multiset(sets) == multiset{sets[0]} + multiset(sets[1..]);
      var rest := RemoveId(sets[1..], id);
      if sets[0].id != id {
        assert RemoveId(sets, id) == [sets[0]] + rest;
        assert multiset([sets[0]] + rest) == multiset{sets[0]} + multiset(rest);
      }
    }
  }

  /** Filtering a concatenation filters each part and concatenates the results. */
  lemma {:induction false} RemoveIdAppend(a: seq<FlashcardSet>, b: seq<FlashcardSet>, id: string)
    ensures RemoveId(a + b, id) == RemoveId(a, id) + RemoveId(b, id)
    decreases |a|
  {
    if |a| == 0 {
      assert a + b == b;
    } else {
      assert (a + b)[0] == a[0];
      assert (a + b)[1..] == a[1..] + b;
      RemoveIdAppend(a[1..], b, id);
      var tail := RemoveId(a[1..], id);
      if a[0].id != id {
        assert [a[0]] + (tail + RemoveId(b, id)) == ([a[0]] + tail) + RemoveId(b, id);
      }
    }
  }

  /** A kept set stays in its place: it follows the kept sets that came before
      it and precedes the kept sets that came after it. */
  lemma RemoveIdAround(sets: seq<FlashcardSet>, k: nat, id: string)
    requires k < |sets| && sets[k].id != id
    ensures RemoveId(sets, id) == RemoveId(sets[..k], id) + [sets[k]] + RemoveId(sets[k + 1..], id)
  {
    assert sets == sets[..k] + ([sets[k]] + sets[k + 1..]);
    RemoveIdAppend(sets[..k], [sets[k]] + sets[k + 1..], id);
    assert ([sets[k]] + sets[k + 1..])[1..] == sets[k + 1..];
  }

  /** `handleDeleteSet`: drops every set with this id from the accounts whose
      email is `email`. */
  function DeleteSet(users: seq<User>, email: string, id: string): (r: seq<User>)
    ensures |r| == |users|
    ensures forall i :: 0 <= i < |users| && users[i].email != email ==> r[i] == users[i]
    ensures forall i :: 0 <= i < |users| && users[i].email == email ==>
              r[i].email == email && r[i].passwordHash == users[i].passwordHash
              && r[i].sets == RemoveId(users[i].sets, id)
              && (forall s :: s in r[i].sets <==> s in users[i].sets && s.id != id)
  {
    seq(|users|, i requires 0 <= i < |users| =>
      if users[i].email == email then users[i].(sets := RemoveId(users[i].sets, id)) else users[i])
  }

  /** Deleting an id no set of the owner carries leaves the account list as it was. */
  lemma DeleteAbsentIsNoop(users: seq<User>, email: string, id: string)
    requires forall i :: 0 <= i < |users| && users[i].email == email ==> id !in SetIds(users[i].sets)
    ensures DeleteSet(users, email, id) == users
  {
    var r := DeleteSet(users, email, id);
    forall i | 0 <= i < |users|
      ensures r[i] == users[i]
    {
      if users[i].email == email {
        assert RemoveId(users[i].sets, id) == users[i].sets;
      }
    }
  }

  /** The number of sets stored across all accounts. */
  function TotalSets(users: seq<User>): nat
  {
    if |users| == 0 then 0 else |users[0].sets| + TotalSets(users[1..])
  }

  /** With unique emails and an existing owner, a save stores exactly one more set overall. */
  lemma {:induction false} AddSetAddsOne(users: seq<User>, email: string, s: FlashcardSet)
    requires EmailsUnique(users) && HasEmail(users, email)
    ensures TotalSets(AddSet(users, email, s)) == TotalSets(users) + 1
  {
    var r := AddSet(users, email, s);
    assert r[1..] == AddSet(users[1..], email, s);
    if users[0].email == email {
      NoOwnerNoChange(users[1..], email, s);
    } else {
      assert HasEmail(users[1..], email) by {
        var i :| 0 <= i < |users| && users[i].email == email;
        assert users[1..][i - 1] == users[i];
      }
      AddSetAddsOne(users[1..], email, s);
    }
  }

  lemma {:induction false} NoOwnerNoChange(users: seq<User>, email: string, s: FlashcardSet)
    requires !HasEmail(users, email)
    ensures AddSet(users, email, s) == users
  {
  }

  // ---------------------------------------------------------------------------
  // Import and share

  /** A set record as parsed from pasted JSON. A field that is missing, or (for
      `flashcards`) not an array, is `None`. */
  datatype SetPayload = SetPayload(
    id: Option<string>,
    name: Option<string>,
    flashcards: Option<seq<Flashcard>>,
    createdAt: string)

  datatype ImportError = InvalidFormat

  datatype ImportResult = Imported(users: seq<User>) | Rejected(error: ImportError)

  /** The validation of `handleImportSet`: `id` and `name` truthy, `flashcards` an array. */
  predicate ValidPayload(p: SetPayload)
  {
    Truthy(p.id) && Truthy(p.name) && p.flashcards.Some?
  }

  /** The id an imported set is stored under in the account `u`: its own,
      unless one of `u`'s sets already has it, then `token` (`Date.now()`). */
  function ImportedId(u: User, id: string, token: string): (r: string)
    ensures id !in SetIds(u.sets) ==> r == id
    ensures id in SetIds(u.sets) ==> r == token
  {
    if exists k :: 0 <= k < |u.sets| && u.sets[k].id == id then token else id
  }

  /** `handleImportSet` from an already-parsed record. */
  function ImportSet(users: seq<User>, email: string, p: SetPayload, token: string): (r: ImportResult)
    ensures !ValidPayload(p) <==> r == Rejected(InvalidFormat)
    ensures r.Imported? ==> |r.users| == |users|
    ensures r.Imported? ==> forall i :: 0 <= i < |users| && users[i].email != email ==> r.users[i] == users[i]
    ensures r.Imported? ==> forall i :: 0 <= i < |users| && users[i].email == email ==>
              r.users[i] == WithSet(users[i], FlashcardSet(ImportedId(users[i], p.id.value, token),
                                                           p.name.value, p.flashcards.value, p.createdAt))
  {
    if !ValidPayload(p) then Rejected(InvalidFormat)
    else
      Imported(seq(|users|, i requires 0 <= i < |users| =>
        if users[i].email == email then
          WithSet(users[i], FlashcardSet(ImportedId(users[i], p.id.value, token), p.name.value, p.flashcards.value, p.createdAt))
        else users[i]))
  }

  /** `handleShareSet`: the record `JSON.stringify` writes for a set, as read back. */
  function Export(s: FlashcardSet): (p: SetPayload)
    ensures p.id == Some(s.id) && p.name == Some(s.name) && p.flashcards == Some(s.flashcards)
    ensures p.createdAt == s.createdAt
  {
    SetPayload(Some(s.id), Some(s.name), Some(s.flashcards), s.createdAt)
  }

  /** Sharing then importing stores a set equal to the shared one in name,
      cards and timestamp, under the same id unless the owner already has it. */
  lemma ExportImportRoundTrip(users: seq<User>, email: string, s: FlashcardSet, token: string, i: nat)
    requires s.id != "" && s.name != ""
    requires i < |users| && users[i].email == email
    ensures ImportSet(users, email, Export(s), token).Imported?
    ensures var u := ImportSet(users, email, Export(s), token).users[i];
            var t := u.sets[|u.sets| - 1];
            && u.sets[..|u.sets| - 1] == users[i].sets
            && t.name == s.name && t.flashcards == s.flashcards && t.createdAt == s.createdAt
            && (s.id !in SetIds(users[i].sets) ==> t == s)
            && (s.id in SetIds(users[i].sets) ==> t.id == token)
  {
  }

  /** A set with an empty name (or id) cannot be shared and imported back. */
  lemma EmptyNameDoesNotRoundTrip(users: seq<User>, email: string, s: FlashcardSet, token: string)
    requires s.name == ""
    ensures ImportSet(users, email, Export(s), token).Rejected?
  {
  }

  /** Import keeps the owner's ids distinct when the token is fresh for that owner. */
  lemma ImportKeepsIdsUnique(u: User, p: SetPayload, token: string)
    requires ValidPayload(p)
    requires IdsUnique(u.sets) && token !in SetIds(u.sets)
    ensures IdsUnique(WithSet(u, FlashcardSet(ImportedId(u, p.id.value, token), p.name.value, p.flashcards.value, p.createdAt)).sets)
  {
  }

  /** Appending a set whose id is fresh for the owner keeps the owner's ids distinct;
      this is the case of a save whose `Date.now()` token was not issued before. */
  lemma SaveKeepsIdsUnique(u: User, s: FlashcardSet)
    requires IdsUnique(u.sets) && s.id !in SetIds(u.sets)
    ensures IdsUnique(WithSet(u, s).sets)
  {
  }
}

=== FILE: review.dfy ===
/** The review screen of App.tsx (`FlashcardsView`): a cursor over the working
    list that saturates at both ends, and the in-place edit of the card under it. */
module Review {
  import opened Types
  import Session

  /** `goToNextCard`: `Math.min(i + 1, len - 1)`. */
  function Next(i: int, len: int): (r: int)
    ensures 0 <= i < len ==> 0 <= r < len
    ensures i < len - 1 ==> r == i + 1
    ensures i >= len - 1 ==> r == len - 1
  {
    if i + 1 < len - 1 then i + 1 else len - 1
  }

  /** `goToPrevCard`: `Math.max(i - 1, 0)`. */
  function Prev(i: int): (r: int)
    ensures r >= 0
    ensures i > 0 ==> r == i - 1
    ensures i <= 0 ==> r == 0
  {
    if i - 1 > 0 then i - 1 else 0
  }

  /** Both moves stop at the ends: back from the first card and forward from the
      last card stay put, so on a one-card list neither moves. */
  lemma Saturates(len: int)
    requires len > 0
    ensures Prev(0) == 0
    ensures Next(len - 1, len) == len - 1
    ensures len == 1 ==> Next(0, len) == 0 && Prev(0) == 0
  {
  }

  /** `handleUpdateCard`: the working list with the card at `i` replaced. */
  function ReplaceAt(cards: seq<Flashcard>, i: int, card: Flashcard): (r: seq<Flashcard>)
    ensures |r| == |cards|
    ensures 0 <= i < |cards| ==> r[i] == card
    ensures forall j :: 0 <= j < |cards| && j != i ==> r[j] == cards[j]
  {
    seq(|cards|, j requires 0 <= j < |cards| => if j == i then card else cards[j])
  }

  /** Saving a card unchanged leaves the list as it was, and of two saves at one
      position only the later one remains. */
  lemma ReplaceAtLaws(cards: seq<Flashcard>, i: int, a: Flashcard, b: Flashcard)
    requires 0 <= i < |cards|
    ensures ReplaceAt(cards, i, cards[i]) == cards
    ensures ReplaceAt(ReplaceAt(cards, i, a), i, b) == ReplaceAt(cards, i, b)
  {
  }

  /** The review screen: the working list and the cursor. */
  datatype Reviewing = Reviewing(cards: seq<Flashcard>, cursor: int)

  datatype Move = Forward | Back | Edit(card: Flashcard)

  function Step(r: Reviewing, m: Move): Reviewing
  {
    match m
    case Forward => r.(cursor := Next(r.cursor, |r.cards|))
    case Back => r.(cursor := Prev(r.cursor))
    case Edit(c) => r.(cards := ReplaceAt(r.cards, r.cursor, c))
  }

  function Run(r: Reviewing, moves: seq<Move>): Reviewing
    decreases |moves|
  {
    if |moves| == 0 then r else Run(Step(r, moves[0]), moves[1..])
  }

  /** The screen opens on the first card; from there any sequence of moves and
      edits keeps the cursor on a card and the list at its length. */
  lemma {:induction false} CursorStaysOnACard(r: Reviewing, moves: seq<Move>)
    requires 0 <= r.cursor < |r.cards|
    ensures 0 <= Run(r, moves).cursor < |r.cards|
    ensures |Run(r, moves).cards| == |r.cards|
    decreases |moves|
  {
    if |moves| > 0 {
      CursorStaysOnACard(Step(r, moves[0]), moves[1..]);
    }
  }

  /** An edit saved on the review screen changes the working list of the
      application only at the cursor, and nothing else in the state. */
  lemma EditTouchesOnlyCursor(s: AppState, cursor: int, card: Flashcard)
    requires 0 <= cursor < |s.activeFlashcards|
    ensures var r := Session.UpdateCards(s, ReplaceAt(s.activeFlashcards, cursor, card));
            && r.activeFlashcards[cursor] == card
            && |r.activeFlashcards| == |s.activeFlashcards|
            && (forall j :: 0 <= j < |s.activeFlashcards| && j != cursor ==> r.activeFlashcards[j] == s.activeFlashcards[j])
            && r.users == s.users && r.currentUser == s.currentUser && r.view == s.view && r.editingSet == s.editingSet
    ensures Session.UpdateCards(s, ReplaceAt(s.activeFlashcards, cursor, card))
              == s.(activeFlashcards := ReplaceAt(s.activeFlashcards, cursor, card))
  {
  }
}

=== FILE: session.dfy ===
/** The application snapshot of App.tsx and the handlers that rewrite it.

    Every handler writes through `updateState(updates)`, which persists and
    installs `{...state, ...updates}` where `state` is the snapshot the handler
    closed over when the screen was last drawn. A handler that writes twice
    therefore builds both results from the same snapshot, and the later write
    replaces the earlier one. */
module Session {
  import opened Types
  import Repository

  // ---------------------------------------------------------------------------
  // updateState

  /** A `Partial<AppState>`: the fields a write sets; `None` leaves a field alone. */
  datatype Patch = Patch(
    view: Option<View>,
    theme: Option<Theme>,
    users: Option<seq<User>>,
    currentUser: Option<Option<User>>,
    activeFlashcards: Option<seq<Flashcard>>,
    editingSet: Option<Option<FlashcardSet>>)

  const NoChange := Patch(None, None, None, None, None, None)

  function Pick<T>(update: Option<T>, current: T): T
  {
    if update.Some? then update.value else current
  }

  /** `{...s, ...p}`: the fields `p` sets come from `p`, the rest from `s`. */
  function Merge(s: AppState, p: Patch): (r: AppState)
    ensures p.view.Some? ==> r.view == p.view.value
    ensures p.view.None? ==> r.view == s.view
    ensures p.theme.Some? ==> r.theme == p.theme.value
    ensures p.theme.None? ==> r.theme == s.theme
    ensures p.users.Some? ==> r.users == p.users.value
    ensures p.users.None? ==> r.users == s.users
    ensures p.currentUser.Some? ==> r.currentUser == p.currentUser.value
    ensures p.currentUser.None? ==> r.currentUser == s.currentUser
    ensures p.activeFlashcards.Some? ==> r.activeFlashcards == p.activeFlashcards.value
    ensures p.activeFlashcards.None? ==> r.activeFlashcards == s.activeFlashcards
    ensures p.editingSet.Some? ==> r.editingSet == p.editingSet.value
    ensures p.editingSet.None? ==> r.editingSet == s.editingSet
  {
    AppState(
      Pick(p.view, s.view), Pick(p.theme, s.theme), Pick(p.users, s.users),
      Pick(p.currentUser, s.currentUser), Pick(p.activeFlashcards, s.activeFlashcards),
      Pick(p.editingSet, s.editingSet))
  }

  /** A handler calling `updateState` once per patch in `writes`, in order:
      each call installs `{...s, ...w}`, built from the snapshot `s` the handler
      closed over, in place of whatever the state `current` then is. */
  function Install(s: AppState, current: AppState, writes: seq<Patch>): AppState
    decreases |writes|
  {
    if |writes| == 0 then current else Install(s, Merge(s, writes[0]), writes[1..])
  }

  /** Whatever the earlier calls installed, the state in the end is the
      snapshot merged with the last write. */
  lemma {:induction false} LastWriteInstalled(s: AppState, current: AppState, writes: seq<Patch>)
    ensures |writes| == 0 ==> Install(s, current, writes) == current
    ensures |writes| > 0 ==> Install(s, current, writes) == Merge(s, writes[|writes| - 1])
    decreases |writes|
  {
    if |writes| > 0 {
      LastWriteInstalled(s, Merge(s, writes[0]), writes[1..]);
      if |writes| > 1 {
        assert writes[1..][|writes| - 2] == writes[|writes| - 1];
      }
    }
  }

  /** The state a handler leaves behind after its writes against the snapshot
      `s`: only the last write shows. */
  function Handle(s: AppState, writes: seq<Patch>): (r: AppState)
    ensures |writes| == 0 ==> r == s
    ensures |writes| > 0 ==> r == Merge(s, writes[|writes| - 1])
  {
    LastWriteInstalled(s, s, writes);
    Install(s, s, writes)
  }

  /** The same writes applied as functional updates, each merged onto the state
      the previous one left. This is not how App.tsx writes; it is the reference
      the sign-up wiring is compared with. */
  function Chain(s: AppState, writes: seq<Patch>): AppState
    decreases |writes|
  {
    if |writes| == 0 then s else Chain(Merge(s, writes[0]), writes[1..])
  }

  /** A write that sets nothing leaves the snapshot as it was, and applying the
      same write twice is applying it once. */
  lemma MergeLaws(s: AppState, p: Patch)
    ensures Merge(s, NoChange) == s
    ensures Merge(Merge(s, p), p) == Merge(s, p)
  {
  }

  /** Of two writes a handler makes against one snapshot, only the second survives:
      whatever the first set and the second did not is lost. */
  lemma {:induction false} LaterWriteWins(s: AppState, first: Patch, second: Patch)
    ensures Handle(s, [first, second]) == Merge(s, second)
    ensures first.users.Some? && second.users.None? ==> Handle(s, [first, second]).users == s.users
  {
    assert [first, second][1..] == [second];
  }

  // ---------------------------------------------------------------------------
  // Navigation

  /** Which screen `renderApp` draws: the sign-in screen whenever nobody is
      signed in or the view is `auth`, the view's screen otherwise. */
  function Screen(s: AppState): (v: View)
    ensures v == Auth <==> s.currentUser.None? || s.view == Auth
    ensures v != Auth ==> v == s.view
  {
    if s.currentUser.None? || s.view == Auth then Auth else s.view
  }

  /** With nothing stored the application starts signed out on the sign-in
      screen with no accounts. */
  lemma StartsSignedOut()
    ensures Screen(InitialState) == Auth
    ensures InitialState.currentUser.None? && EmailsUnique(InitialState.users)
  {
  }

  /** `handleLogout`: signs out, keeping every account and set. */
  function Logout(s: AppState): (r: AppState)
    ensures r.view == Auth && r.currentUser.None?
    ensures r.users == s.users && r.activeFlashcards == s.activeFlashcards
    ensures r.editingSet == s.editingSet && r.theme == s.theme
    ensures Screen(r) == Auth
  {
    Handle(s, [NoChange.(currentUser := Some(None), view := Some(Auth))])
  }

  /** `createNewSet`: back to the upload screen with an empty working list. */
  function CreateNewSet(s: AppState): (r: AppState)
    ensures r.view == Upload && r.activeFlashcards == [] && r.editingSet.None?
    ensures r.users == s.users && r.currentUser == s.currentUser && r.theme == s.theme
  {
    Handle(s, [NoChange.(activeFlashcards := Some([]), editingSet := Some(None), view := Some(Upload))])
  }

  /** The header's "My Sets" button. */
  function ShowMySets(s: AppState): (r: AppState)
    ensures r == s.(view := MySets)
  {
    Handle(s, [NoChange.(view := Some(MySets))])
  }

  /** `onStudySet`: loads a saved set as the working list. */
  function StudySet(s: AppState, fs: FlashcardSet): (r: AppState)
    ensures r.view == Flashcards && r.activeFlashcards == fs.flashcards && r.editingSet == Some(fs)
    ensures r.users == s.users && r.currentUser == s.currentUser && r.theme == s.theme
  {
    Handle(s, [NoChange.(activeFlashcards := Some(fs.flashcards), editingSet := Some(Some(fs)), view := Some(Flashcards))])
  }

  /** `onUpdateCards`: replaces the working list and nothing else. */
  function UpdateCards(s: AppState, cards: seq<Flashcard>): (r: AppState)
    ensures r == s.(activeFlashcards := cards)
  {
    Handle(s, [NoChange.(activeFlashcards := Some(cards))])
  }

  /** What the card generator delivers: a card list, or a thrown value
      (`Some(message)` for an `Error`, `None` for anything else). */
  datatype Generation = Generated(cards: seq<Flashcard>) | Failed(message: Option<string>)

  const NoCardsMessage := "The AI couldn't generate any flashcards from the provided content. Please try different content or a different file."
  const UnknownErrorMessage := "An unknown error occurred during file processing."

  /** The upload screen's state after `handleFileProcess` has run to completion
      on a chosen file: the state and the error line shown under the drop zone.
      Both of its writes are built from the snapshot taken when the file was chosen. */
  function FileProcessed(s: AppState, g: Generation): (r: (AppState, Option<string>))
    ensures g.Generated? && |g.cards| > 0 ==>
              r.0 == s.(activeFlashcards := g.cards, view := Flashcards) && r.1.None?
    ensures g.Generated? && |g.cards| == 0 ==>
              r.0 == s.(activeFlashcards := []) && r.1 == Some(NoCardsMessage)
    ensures g.Failed? ==> r.0 == s.(activeFlashcards := []) && r.1.Some?
    ensures g.Failed? && g.message.Some? ==> r.1 == g.message
    ensures g.Failed? && g.message.None? ==> r.1 == Some(UnknownErrorMessage)
  {
    var cleared := NoChange.(activeFlashcards := Some([]));
    match g
    case Generated(cards) =>
      if |cards| == 0 then (Handle(s, [cleared]), Some(NoCardsMessage))
      else (Handle(s, [cleared, NoChange.(activeFlashcards := Some(cards), view := Some(Flashcards))]), None)
    case Failed(m) =>
      (Handle(s, [cleared]), Some(if m.Some? then m.value else UnknownErrorMessage))
  }

  /** The events that move between the signed-in screens without touching the
      stored accounts. */
  datatype Nav =
    | SignOut
    | StartNewSet
    | OpenMySets
    | Study(chosen: FlashcardSet)
    | EditCards(cards: seq<Flashcard>)
    | Processed(result: Generation)

  function Navigate(s: AppState, n: Nav): AppState
  {
    match n
    case SignOut => Logout(s)
    case StartNewSet => CreateNewSet(s)
    case OpenMySets => ShowMySets(s)
    case Study(fs) => StudySet(s, fs)
    case EditCards(cards) => UpdateCards(s, cards)
    case Processed(g) => FileProcessed(s, g).0
  }

  function NavigateAll(s: AppState, ns: seq<Nav>): AppState
    decreases |ns|
  {
    if |ns| == 0 then s else NavigateAll(Navigate(s, ns[0]), ns[1..])
  }

  /** However the user moves between screens, the stored accounts and the
      theme stay as they were, and the signed-in account stays signed in
      unless one of the events is a sign-out. */
  lemma {:induction false} NavigationKeepsAccounts(s: AppState, ns: seq<Nav>)
    ensures var r := NavigateAll(s, ns);
            && r.users == s.users && r.theme == s.theme
            && r.currentUser == (if SignOut in ns then None else s.currentUser)
    decreases |ns|
  {
    if |ns| > 0 {
      assert ns == [ns[0]] + ns[1..];
      NavigationKeepsAccounts(Navigate(s, ns[0]), ns[1..]);
    }
  }

  // ---------------------------------------------------------------------------
  // Saving, deleting and importing sets

  /** `handleSaveSet(name)`. `token` stands for `Date.now().toString()` and
      `createdAt` for the ISO timestamp of the save. */
  function SaveSet(s: AppState, name: string, token: string, createdAt: string): (r: AppState)
    ensures s.currentUser.None? || |s.activeFlashcards| == 0 ==> r == s
    ensures s.currentUser.Some? && |s.activeFlashcards| > 0 ==>
              var email := s.currentUser.value.email;
              && r.view == MySets
              && r.users == Repository.AddSet(s.users, email,
                              FlashcardSet(token, name, s.activeFlashcards, createdAt))
              && r.currentUser == FindUser(r.users, email)
              && r.activeFlashcards == s.activeFlashcards && r.editingSet == s.editingSet
    ensures s.currentUser.Some? && |s.activeFlashcards| > 0 ==>
              r == s.(users := r.users, currentUser := r.currentUser, view := MySets)
  {
    if s.currentUser.None? || |s.activeFlashcards| == 0 then s
    else
      var email := s.currentUser.value.email;
      var users := Repository.AddSet(s.users, email, FlashcardSet(token, name, s.activeFlashcards, createdAt));
      Handle(s, [NoChange.(users := Some(users), currentUser := Some(FindUser(users, email)), view := Some(MySets))])
  }

  /** After a save by a signed-in account that is stored in `users` (emails
      unique), that account is still the current one and its set list is the
      old one plus exactly the new set, whose cards are the working list; all
      other accounts are untouched. */
  lemma {:induction false} SaveAppendsOneSet(s: AppState, name: string, token: string, createdAt: string, i: nat)
    requires s.currentUser.Some? && |s.activeFlashcards| > 0
    requires EmailsUnique(s.users) && i < |s.users| && s.users[i].email == s.currentUser.value.email
    ensures var r := SaveSet(s, name, token, createdAt);
            && |r.users| == |s.users|
            && r.currentUser == Some(r.users[i])
            && r.users[i].sets == s.users[i].sets + [FlashcardSet(token, name, s.activeFlashcards, createdAt)]
            && (forall j :: 0 <= j < |s.users| && j != i ==> r.users[j] == s.users[j])
            && Repository.TotalSets(r.users) == Repository.TotalSets(s.users) + 1
  {
    var r := SaveSet(s, name, token, createdAt);
    var email := s.currentUser.value.email;
    var fs := FlashcardSet(token, name, s.activeFlashcards, createdAt);
    FindUniqueUser(r.users, email, i);
    Repository.AddSetAddsOne(s.users, email, fs);
  }

  /** With unique emails, looking an account up by its email finds that very account. */
  lemma {:induction false} FindUniqueUser(users: seq<User>, email: string, i: nat)
    requires EmailsUnique(users) && i < |users| && users[i].email == email
    ensures FindUser(users, email) == Some(users[i])
  {
    var r := FindUser(users, email);
    var k :| 0 <= k < |users| && users[k] == r.value
                && forall j :: 0 <= j < k ==> users[j].email != email;
    if k < i {
      assert users[k].email == users[i].email;
    }
  }

  /** `onUsersUpdate` of the "My Sets" screen: installs the new account list and
      re-reads the current account from it by email. */
  function UsersUpdated(s: AppState, users: seq<User>): (r: AppState)
    requires s.currentUser.Some?
    ensures r.users == users && r.currentUser == FindUser(users, s.currentUser.value.email)
    ensures r == s.(users := users, currentUser := r.currentUser)
  {
    Handle(s, [NoChange.(users := Some(users), currentUser := Some(FindUser(users, s.currentUser.value.email)))])
  }

  /** `handleDeleteSet(id)` on the "My Sets" screen of the signed-in account. */
  function DeleteSet(s: AppState, id: string): (r: AppState)
    requires s.currentUser.Some?
    ensures var email := s.currentUser.value.email;
            && r.users == Repository.DeleteSet(s.users, email, id)
            && r.currentUser == FindUser(r.users, email)
    ensures r == s.(users := r.users, currentUser := r.currentUser)
  {
    UsersUpdated(s, Repository.DeleteSet(s.users, s.currentUser.value.email, id))
  }

  /** Deleting removes the set with that id from the current account only; the
      account keeps exactly its sets with another id, in their order. */
  lemma {:induction false} DeleteOnlyOwner(s: AppState, id: string, i: nat)
    requires s.currentUser.Some? && EmailsUnique(s.users)
    requires i < |s.users| && s.users[i].email == s.currentUser.value.email
    ensures var r := DeleteSet(s, id);
            && r.currentUser == Some(r.users[i])
            && r.users[i].sets == Repository.RemoveId(s.users[i].sets, id)
            && (forall fs :: fs in r.users[i].sets <==> fs in s.users[i].sets && fs.id != id)
            && (forall j :: 0 <= j < |s.users| && j != i ==> r.users[j] == s.users[j])
            && (id !in SetIds(s.users[i].sets) ==> r.users == s.users)
  {
    var r := DeleteSet(s, id);
    var email := s.currentUser.value.email;
    FindUniqueUser(r.users, email, i);
    if id !in SetIds(s.users[i].sets) {
      forall j | 0 <= j < |s.users| && s.users[j].email == email
        ensures id !in SetIds(s.users[j].sets)
      {
        assert j == i;
      }
      Repository.DeleteAbsentIsNoop(s.users, email, id);
    }
  }

  const ImportErrorMessage := "Invalid flashcard set data. Please check the format and try again."

  /** `handleImportSet` on an already-parsed record: the new state and the
      error shown in the import dialog. A rejected record changes nothing. */
  function ImportSet(s: AppState, p: Repository.SetPayload, token: string): (r: (AppState, Option<string>))
    requires s.currentUser.Some?
    ensures !Repository.ValidPayload(p) ==> r == (s, Some(ImportErrorMessage))
    ensures Repository.ValidPayload(p) ==> r.1.None?
    ensures Repository.ValidPayload(p) ==>
              var users := Repository.ImportSet(s.users, s.currentUser.value.email, p, token).users;
              r.0 == s.(users := users, currentUser := FindUser(users, s.currentUser.value.email))
  {
    match Repository.ImportSet(s.users, s.currentUser.value.email, p, token)
    case Rejected(_) => (s, Some(ImportErrorMessage))
    case Imported(users) => (UsersUpdated(s, users), None)
  }

  // ---------------------------------------------------------------------------
  // Authentication (AuthView)

  datatype AuthMode = SignIn | SignUp | Forgot

  /** The submitted form. */
  datatype AuthForm = AuthForm(mode: AuthMode, email: string, password: string, confirmPassword: string)

  /** What `handleAuthAction` decides. `SignedUp` carries the account list it
      passes to `onUsersUpdate` and the account it passes to `onAuthSuccess`. */
  datatype AuthOutcome =
    | AuthError(error: string)
    | Notice(message: string)
    | SignedUp(users: seq<User>, user: User)
    | SignedIn(user: User)

  const PasswordMismatch := "Passwords do not match."
  const EmailTaken := "An account with this email already exists."
  const BadCredentials := "Invalid email or password."
  const UnknownEmail := "No account found with that email address."

  /** The stored form of a password. */
  function HashPassword(password: string): string
  {
    "hashed_" + password
  }

  function ResetNotice(email: string): string
  {
    "Password reset instructions sent to " + email + ". (This is a simulation)."
  }

  /** `handleAuthAction` over the account list it was drawn with. */
  function AuthAction(users: seq<User>, f: AuthForm): (r: AuthOutcome)
    ensures f.mode == SignUp ==>
              (r.SignedUp? <==> f.password == f.confirmPassword && !HasEmail(users, f.email))
    ensures f.mode == SignUp && f.password != f.confirmPassword ==> r == AuthError(PasswordMismatch)
    ensures f.mode == SignUp && f.password == f.confirmPassword && HasEmail(users, f.email) ==> r == AuthError(EmailTaken)
    ensures r.SignedUp? ==> r.user == User(f.email, HashPassword(f.password), [])
                            && r.users == users + [r.user]
    ensures f.mode == SignIn ==>
              (r.SignedIn? <==> exists u :: FindUser(users, f.email) == Some(u) && u.passwordHash == HashPassword(f.password))
    ensures f.mode == SignIn && !r.SignedIn? ==> r == AuthError(BadCredentials)
    ensures r.SignedIn? ==> r.user in users && r.user.email == f.email
    ensures r.SignedIn? ==> FindUser(users, f.email) == Some(r.user)
    ensures f.mode == Forgot ==>
              (HasEmail(users, f.email) ==> r == Notice(ResetNotice(f.email)))
              && (!HasEmail(users, f.email) ==> r == AuthError(UnknownEmail))
  {
    match f.mode
    case SignUp =>
      if f.password != f.confirmPassword then AuthError(PasswordMismatch)
      else if FindUser(users, f.email).Some? then AuthError(EmailTaken)
      else
        var u := User(f.email, HashPassword(f.password), []);
        SignedUp(users + [u], u)
    case SignIn =>
      var found := FindUser(users, f.email);
      if found.Some? && found.value.passwordHash == HashPassword(f.password) then SignedIn(found.value)
      else AuthError(BadCredentials)
    case Forgot =>
      if FindUser(users, f.email).Some? then Notice(ResetNotice(f.email)) else AuthError(UnknownEmail)
  }

  /** A sign-up keeps the account emails distinct. */
  lemma SignUpKeepsEmailsUnique(users: seq<User>, f: AuthForm)
    requires EmailsUnique(users)
    ensures AuthAction(users, f).SignedUp? ==> EmailsUnique(AuthAction(users, f).users)
  {
  }

  /** The application state after the sign-in screen's outcome, as App.tsx wires
      it: `onUsersUpdate` and then `onAuthSuccess`, each an `updateState` on the
      same snapshot, so the account list write is overwritten by the second. */
  function ApplyAuth(s: AppState, o: AuthOutcome): (r: AppState)
    ensures !o.SignedUp? && !o.SignedIn? ==> r == s
    ensures o.SignedIn? ==> r == s.(currentUser := Some(o.user), view := Upload)
    ensures o.SignedUp? ==> r == s.(currentUser := Some(o.user), view := Upload)
  {
    Handle(s, AuthWrites(o))
  }

  /** The `updateState` calls the sign-in screen's outcome leads to:
      `onUsersUpdate(newUsers)` then `onAuthSuccess(newUser)` for a sign-up,
      `onAuthSuccess(user)` for a sign-in, none otherwise. */
  function AuthWrites(o: AuthOutcome): seq<Patch>
  {
    match o
    case SignedUp(users, u) =>
      [NoChange.(users := Some(users)), NoChange.(currentUser := Some(Some(u)), view := Some(Upload))]
    case SignedIn(u) => [NoChange.(currentUser := Some(Some(u)), view := Some(Upload))]
    case _ => []
  }

  /** The intended wiring: one write carrying the new account list, the new
      current account and the upload view. */
  function ApplyAuthPersisting(s: AppState, o: AuthOutcome): (r: AppState)
    ensures !o.SignedUp? && !o.SignedIn? ==> r == s
    ensures o.SignedIn? ==> r == s.(currentUser := Some(o.user), view := Upload)
    ensures o.SignedUp? ==> r == s.(users := o.users, currentUser := Some(o.user), view := Upload)
  {
    match o
    case SignedUp(users, u) =>
      Handle(s, [NoChange.(users := Some(users), currentUser := Some(Some(u)), view := Some(Upload))])
    case SignedIn(u) => Handle(s, [NoChange.(currentUser := Some(Some(u)), view := Some(Upload))])
    case _ => s
  }

  /** Had the writes been functional updates, each merged onto the state the
      previous one left, App.tsx's own sequence of writes would give the
      intended outcome. */
  lemma {:induction false} ChainedAuthWritesPersist(s: AppState, o: AuthOutcome)
    ensures Chain(s, AuthWrites(o)) == ApplyAuthPersisting(s, o)
  {
    match o
    case SignedUp(users, u) =>
      var w := AuthWrites(o);
      assert w[1..][1..] == [];
      assert Chain(s, w) == Chain(Merge(Merge(s, w[0]), w[1]), []);
    case SignedIn(u) =>
      assert AuthWrites(o)[1..] == [];
    case _ =>
  }

  function SignUpForm(email: string, password: string): AuthForm
  {
    AuthForm(SignUp, email, password, password)
  }

  /** As written, a successful sign-up signs the new account in but does not
      store it: the account list is the one from before, which has no account
      with that email. */
  lemma SignUpLosesAccount(s: AppState, email: string, password: string)
    requires !HasEmail(s.users, email)
    ensures AuthAction(s.users, SignUpForm(email, password)).SignedUp?
    ensures var r := ApplyAuth(s, AuthAction(s.users, SignUpForm(email, password)));
            && r.currentUser == Some(User(email, HashPassword(password), []))
            && r.users == s.users && !HasEmail(r.users, email)
  {
  }

  /** As written, the first save after a sign-up finds no stored account for the
      signed-in email, leaves the account list alone and signs the user out. */
  lemma SaveAfterSignUpSignsOut(s: AppState, email: string, password: string,
                                name: string, token: string, createdAt: string)
    requires !HasEmail(s.users, email) && |s.activeFlashcards| > 0
    ensures var signed := ApplyAuth(s, AuthAction(s.users, SignUpForm(email, password)));
            var r := SaveSet(signed, name, token, createdAt);
            && r.users == s.users && r.currentUser.None? && Screen(r) == Auth
  {
    var signed := ApplyAuth(s, AuthAction(s.users, SignUpForm(email, password)));
    Repository.NoOwnerNoChange(s.users, email, FlashcardSet(token, name, s.activeFlashcards, createdAt));
  }

  /** With the intended wiring a sign-up stores the account, signs it in, keeps
      emails distinct, and a later sign-in with the same password succeeds. */
  lemma {:induction false} SignUpPersists(s: AppState, email: string, password: string)
    requires EmailsUnique(s.users) && !HasEmail(s.users, email)
    ensures var r := ApplyAuthPersisting(s, AuthAction(s.users, SignUpForm(email, password)));
            && r.users == s.users + [User(email, HashPassword(password), [])]
            && EmailsUnique(r.users)
            && r.currentUser == FindUser(r.users, email)
            && AuthAction(r.users, AuthForm(SignIn, email, password, "")) == SignedIn(User(email, HashPassword(password), []))
  {
    var r := ApplyAuthPersisting(s, AuthAction(s.users, SignUpForm(email, password)));
    FindUniqueUser(r.users, email, |s.users|);
  }

  /** Signing up "a@x.com" with "p1", signing out and signing in with "p2" is
      refused and leaves the sign-in screen up, whichever wiring is used: as
      written the account was never stored, and with the intended wiring the
      stored password differs. */
  lemma WrongPasswordAfterSignUp(s: AppState)
    requires EmailsUnique(s.users) && !HasEmail(s.users, "a@x.com")
    ensures var o := AuthAction(s.users, SignUpForm("a@x.com", "p1"));
            var out := Logout(ApplyAuthPersisting(s, o));
            var again := AuthAction(out.users, AuthForm(SignIn, "a@x.com", "p2", ""));
            && again == AuthError(BadCredentials)
            && Screen(ApplyAuthPersisting(out, again)) == Auth
    ensures var o := AuthAction(s.users, SignUpForm("a@x.com", "p1"));
            var out := Logout(ApplyAuth(s, o));
            var again := AuthAction(out.users, AuthForm(SignIn, "a@x.com", "p2", ""));
            && again == AuthError(BadCredentials)
            && Screen(ApplyAuth(out, again)) == Auth
  {
    var o := AuthAction(s.users, SignUpForm("a@x.com", "p1"));
    var out := Logout(ApplyAuthPersisting(s, o));
    FindUniqueUser(out.users, "a@x.com", |s.users|);
    assert HashPassword("p1") != HashPassword("p2") by {
      assert HashPassword("p1")[8] != HashPassword("p2")[8];
    }
  }
}

=== FILE: test_mode.dfy ===
/** The test mode (components/TestMode.tsx): the cards in a shuffled order, one
    question at a time, a free-text answer graded after `trim` and lower-casing,
    a running score and a closing summary. */
module TestMode {
  import opened Types
  import Text

  /** The component's state. `isCorrect` is the grading of the current answer,
      `None` until it is submitted; `showAnswer` reveals the stored answer. */
  datatype Testing = Testing(
    order: seq<Flashcard>,
    index: nat,
    input: string,
    isCorrect: Option<bool>,
    showAnswer: bool,
    score: nat,
    finished: bool)

  /** What the component shows. */
  datatype Screen = NoCards | Question(card: Flashcard, graded: Option<bool>) | Summary(score: nat, total: nat)

  /** The state after the shuffle effect (on mount or a new card list) and after
      "Restart Test": `shuffled` is the order `sort` with a random comparator
      produced, some permutation of `cards`. */
  function Start(cards: seq<Flashcard>, shuffled: seq<Flashcard>): (t: Testing)
    requires multiset(shuffled) == multiset(cards)
    ensures multiset(t.order) == multiset(cards) && |t.order| == |cards|
    ensures t.index == 0 && t.score == 0 && !t.finished
    ensures t.input == "" && t.isCorrect.None? && !t.showAnswer
    ensures Valid(t)
  {
    assert |shuffled| == |multiset(shuffled)| == |multiset(cards)| == |cards|;
    Testing(shuffled, 0, "", None, false, 0, false)
  }

  /** What a reachable state shows ("No cards to test.", a question, or the summary). */
  function View(t: Testing): (v: Screen)
    requires Valid(t)
    ensures |t.order| == 0 <==> v == NoCards
    ensures v.Summary? <==> |t.order| > 0 && t.finished
    ensures v.Summary? ==> v.total == |t.order| && v.score == t.score
    ensures v.Question? <==> |t.order| > 0 && !t.finished
    ensures v.Question? ==> v.card == t.order[t.index] && v.graded == (if t.showAnswer then t.isCorrect else None)
  {
    if |t.order| == 0 then NoCards
    else if t.finished then Summary(t.score, |t.order|)
    else Question(t.order[t.index], if t.showAnswer then t.isCorrect else None)
  }

  /** The answer box and "Check Answer" are on screen: a question is shown and
      its answer is still hidden. */
  predicate Answering(t: Testing)
  {
    !t.finished && t.index < |t.order| && !t.showAnswer
  }

  /** Typing into the answer box, which is disabled once the answer is shown. */
  function Type(t: Testing, text: string): (r: Testing)
    ensures Answering(t) ==> r == t.(input := text)
    ensures !Answering(t) ==> r == t
  {
    if Answering(t) then t.(input := text) else t
  }

  /** Whether `input` counts as the stored `answer`: equal after trimming and
      lower-casing both; punctuation counts. */
  predicate Correct(answer: string, input: string)
  {
    Text.Normalize(answer) == Text.Normalize(input)
  }

  /** `handleSubmit`, offered only while answering. */
  function Submit(t: Testing): (r: Testing)
    ensures !Answering(t) || Text.IsBlank(t.input) ==> r == t
    ensures Answering(t) && !Text.IsBlank(t.input) ==>
              var ok := Correct(t.order[t.index].answer, t.input);
              && r.showAnswer && r.isCorrect == Some(ok)
              && r.score == (if ok then t.score + 1 else t.score)
              && r.order == t.order && r.index == t.index && r.input == t.input && !r.finished
  {
    if !Answering(t) || Text.IsBlank(t.input) then t
    else
      var ok := Correct(t.order[t.index].answer, t.input);
      t.(isCorrect := Some(ok), score := if ok then t.score + 1 else t.score, showAnswer := true)
  }

  /** `handleNext`, offered once the answer is shown: the next question, or
      the summary after the last one. */
  function Next(t: Testing): (r: Testing)
    ensures !t.showAnswer || t.finished ==> r == t
    ensures t.showAnswer && !t.finished && t.index + 1 < |t.order| ==>
              r == t.(index := t.index + 1, input := "", isCorrect := None, showAnswer := false)
    ensures t.showAnswer && !t.finished && t.index + 1 >= |t.order| ==>
              r == t.(finished := true)
  {
    if !t.showAnswer || t.finished then t
    else if t.index < |t.order| - 1 then
      t.(index := t.index + 1, input := "", isCorrect := None, showAnswer := false)
    else t.(finished := true)
  }

  /** "Restart Test", offered on the summary: a new shuffle and every counter reset. */
  function Restart(t: Testing, cards: seq<Flashcard>, shuffled: seq<Flashcard>): (r: Testing)
    requires multiset(shuffled) == multiset(cards)
    ensures !t.finished ==> r == t
    ensures t.finished ==> r.score == 0 && r.index == 0 && !r.finished && multiset(r.order) == multiset(cards)
    ensures t.finished ==> r.order == shuffled && r.input == "" && r.isCorrect.None? && !r.showAnswer
  {
    if t.finished then Start(cards, shuffled) else t
  }

  /** What holds between events: the cursor is on a card, grading is shown
      exactly when a grade exists, the summary follows the last answer, and the
      score counts at most the answers graded so far. */
  predicate Valid(t: Testing)
  {
    && (|t.order| == 0 ==> t.index == 0 && !t.showAnswer && !t.finished && t.score == 0)
    && (|t.order| > 0 ==> t.index < |t.order|)
    && (t.showAnswer <==> t.isCorrect.Some?)
    && (t.finished ==> t.showAnswer && t.index == |t.order| - 1)
    && t.score <= t.index + (if t.showAnswer then 1 else 0)
  }

  /** A valid state never scores more than there are cards, so the summary
      shows a score no larger than its total. */
  lemma ScoreBounded(t: Testing)
    requires Valid(t)
    ensures t.score <= |t.order|
    ensures View(t).Summary? ==> View(t).score <= View(t).total
  {
  }

  datatype Event = Typed(text: string) | Submitted | Advanced

  function Step(t: Testing, e: Event): Testing
  {
    match e
    case Typed(text) => Type(t, text)
    case Submitted => Submit(t)
    case Advanced => Next(t)
  }

  function Run(t: Testing, events: seq<Event>): Testing
    decreases |events|
  {
    if |events| == 0 then t else Run(Step(t, events[0]), events[1..])
  }

  /** Every event keeps validity and the order, and raises the score by at most one. */
  lemma StepKeepsValid(t: Testing, e: Event)
    requires Valid(t)
    ensures Valid(Step(t, e)) && Step(t, e).order == t.order
    ensures t.score <= Step(t, e).score <= t.score + 1
  {
  }

  /** Within one attempt the score never falls and never passes the number of
      cards, whatever the user types and clicks. */
  lemma {:induction false} ScoreMonotoneWithinAttempt(t: Testing, events: seq<Event>)
    requires Valid(t)
    ensures Valid(Run(t, events)) && Run(t, events).order == t.order
    ensures t.score <= Run(t, events).score <= |t.order|
    decreases |events|
  {
    if |events| > 0 {
      StepKeepsValid(t, events[0]);
      ScoreMonotoneWithinAttempt(Step(t, events[0]), events[1..]);
    }
  }

  /** Typing each card's own answer, checking it and moving on. */
  function AnswerAll(cards: seq<Flashcard>): seq<Event>
  {
    if |cards| == 0 then [] else [Typed(cards[0].answer), Submitted, Advanced] + AnswerAll(cards[1..])
  }

  lemma {:induction false} RunAppend(t: Testing, a: seq<Event>, b: seq<Event>)
    ensures Run(t, a + b) == Run(Run(t, a), b)
    decreases |a|
  {
    if |a| > 0 {
      assert (a + b)[1..] == a[1..] + b;
      RunAppend(Step(t, a[0]), a[1..], b);
    } else {
      assert a + b == b;
    }
  }

  /** Typing a card's non-blank answer, checking it and moving on earns its
      point and reaches the next question, or the summary after the last card. */
  lemma {:induction false} AnswerOne(t: Testing)
    requires Answering(t) && !Text.IsBlank(t.order[t.index].answer)
    ensures var r := Run(t, [Typed(t.order[t.index].answer), Submitted, Advanced]);
            && r.order == t.order && r.score == t.score + 1
            && (t.index + 1 < |t.order| ==> Answering(r) && r.index == t.index + 1)
            && (t.index + 1 == |t.order| ==> r.finished && r.index == t.index)
  {
    var steps := [Typed(t.order[t.index].answer), Submitted, Advanced];
    var t1 := Type(t, t.order[t.index].answer);
    assert Correct(t1.order[t1.index].answer, t1.input);
    var t2 := Submit(t1);
    assert t2.score == t.score + 1;
    var t3 := Next(t2);
    calc {
      Run(t, steps);
      { assert steps[1..] == [Submitted, Advanced]; }
      Run(t1, [Submitted, Advanced]);
      { assert [Submitted, Advanced][1..] == [Advanced]; }
      Run(t2, [Advanced]);
      { assert [Advanced][1..] == []; }
      Run(t3, []);
    }
  }

  /** From question `t.index` with `t.index` points, answering every remaining
      card correctly ends on the summary with a full score. */
  lemma {:induction false} AnswerRest(t: Testing)
    requires Answering(t) && t.score == t.index
    requires forall k :: t.index <= k < |t.order| ==> !Text.IsBlank(t.order[k].answer)
    ensures var r := Run(t, AnswerAll(t.order[t.index..]));
            r.finished && r.score == |t.order| && r.index == |t.order| - 1 && r.order == t.order
    decreases |t.order| - t.index
  {
    var rest := t.order[t.index..];
    var c := t.order[t.index];
    assert rest[0] == c && rest[1..] == t.order[t.index + 1..];
    var steps := [Typed(c.answer), Submitted, Advanced];
    assert AnswerAll(rest) == steps + AnswerAll(t.order[t.index + 1..]);
    RunAppend(t, steps, AnswerAll(t.order[t.index + 1..]));
    AnswerOne(t);
    var t3 := Run(t, steps);
    if t.index + 1 < |t.order| {
      AnswerRest(t3);
    } else {
      assert t.order[t.index + 1..] == [];
    }
  }

  /** A test over cards whose answers are not blank, answered correctly
      throughout, finishes with every point: three cards give 3 / 3. */
  lemma AllCorrectScoresTotal(cards: seq<Flashcard>, shuffled: seq<Flashcard>)
    requires multiset(shuffled) == multiset(cards) && |cards| > 0
    requires forall c :: c in cards ==> !Text.IsBlank(c.answer)
    ensures var t := Start(cards, shuffled);
            var r := Run(t, AnswerAll(t.order));
            Valid(r) && r.finished && View(r) == Summary(|cards|, |cards|)
  {
    var t := Start(cards, shuffled);
    forall k | 0 <= k < |t.order|
      ensures !Text.IsBlank(t.order[k].answer)
    {
      assert t.order[k] in multiset(t.order);
    }
    assert t.order[0..] == t.order;
    AnswerRest(t);
    ScoreMonotoneWithinAttempt(t, AnswerAll(t.order));
  }
}

=== FILE: text.dfy ===
/** The string normalisation the test mode grades with: JavaScript's
    `String.prototype.trim` and `toLowerCase`, the latter on ASCII letters. */
module Text {

  /** The characters `trim` removes: the ECMAScript WhiteSpace code points
      (tab, vertical tab, form feed, space, no-break space, byte order mark and
      the Unicode space separators) and the four LineTerminator code points. */
  predicate IsSpace(c: char)
  {
    || c == '\t' || c == '\U{000B}' || c == '\U{000C}' || c == ' '
    || c == '\U{00A0}' || c == '\U{FEFF}' || c == '\U{1680}'
    || ('\U{2000}' <= c <= '\U{200A}')
    || c == '\U{202F}' || c == '\U{205F}' || c == '\U{3000}'
    || c == '\n' || c == '\r' || c == '\U{2028}' || c == '\U{2029}'
  }

  predicate AllSpace(s: string)
  {
    forall i :: 0 <= i < |s| ==> IsSpace(s[i])
  }

  /** How many spaces `s` starts with. */
  function LeadingSpaces(s: string): (n: nat)
    ensures n <= |s|
    ensures AllSpace(s[..n])
    ensures n < |s| ==> !IsSpace(s[n])
  {
    if |s| > 0 && IsSpace(s[0]) then
      var n := 1 + LeadingSpaces(s[1..]);
      assert s[..n] == [s[0]] + s[1..][..n - 1];
      n
    else 0
  }

  /** `s` with its leading spaces removed. */
  function TrimStart(s: string): (r: string)
    ensures r == s[LeadingSpaces(s)..]
    ensures |r| > 0 ==> !IsSpace(r[0])
    decreases |s|
  {
    if |s| > 0 && IsSpace(s[0]) then TrimStart(s[1..]) else s
  }

  /** `s` with its trailing spaces removed. */
  function TrimEnd(s: string): (r: string)
    ensures |r| <= |s| && r == s[..|r|]
    ensures AllSpace(s[|r|..])
    ensures |r| > 0 ==> !IsSpace(r[|r| - 1])
    decreases |s|
  {
    if |s| > 0 && IsSpace(s[|s| - 1]) then
      var init := s[..|s| - 1];
      var r := TrimEnd(init);
      assert init[..|r|] == s[..|r|];
      assert s[|r|..] == init[|r|..] + [s[|s| - 1]];
      r
    else s
  }

  /** `String.prototype.trim`: what is left once the leading spaces and the
      trailing spaces are cut off; it neither starts nor ends with a space. */
  function Trim(s: string): (r: string)
    ensures LeadingSpaces(s) + |r| <= |s|
    ensures r == s[LeadingSpaces(s)..LeadingSpaces(s) + |r|]
    ensures AllSpace(s[LeadingSpaces(s) + |r|..])
    ensures |r| > 0 ==> !IsSpace(r[0]) && !IsSpace(r[|r| - 1])
  {
    var n := LeadingSpaces(s);
    var t := TrimStart(s);
    var r := TrimEnd(t);
    assert s[n..][..|r|] == s[n..n + |r|];
    assert s[n..][|r|..] == s[n + |r|..];
    r
  }

  /** ASCII `toLowerCase` of one character; every other character is kept. */
  function LowerChar(c: char): (d: char)
    ensures !('A' <= d <= 'Z')
    ensures 'a' <= d <= 'z' <==> 'A' <= c <= 'Z' || 'a' <= c <= 'z'
    ensures !('A' <= c <= 'Z') ==> d == c
  {
    if 'A' <= c <= 'Z' then (c as int + 32) as char else c
  }

  /** `toLowerCase`, letter by letter. */
  function Lower(s: string): (r: string)
    ensures |r| == |s|
    ensures forall i :: 0 <= i < |s| ==> r[i] == LowerChar(s[i])
  {
    seq(|s|, i requires 0 <= i < |s| => LowerChar(s[i]))
  }

  /** `s.trim().toLowerCase()`, the form both sides of an answer are compared in. */
  function Normalize(s: string): string
  {
    Lower(Trim(s))
  }

  /** `!s.trim()`: the text is empty once trimmed. */
  predicate IsBlank(s: string)
  {
    Trim(s) == ""
  }

  lemma {:induction false} TrimStartOfNoLeadingSpace(s: string)
    requires |s| == 0 || !IsSpace(s[0])
    ensures TrimStart(s) == s
  {
  }

  lemma {:induction false} TrimEndOfNoTrailingSpace(s: string)
    requires |s| == 0 || !IsSpace(s[|s| - 1])
    ensures TrimEnd(s) == s
  {
  }

  /** Trimming twice is trimming once. */
  lemma TrimIdempotent(s: string)
    ensures Trim(Trim(s)) == Trim(s)
  {
    var r := Trim(s);
    TrimStartOfNoLeadingSpace(r);
    TrimEndOfNoTrailingSpace(r);
  }

  /** Text is blank exactly when every one of its characters is a space. */
  lemma {:induction false} BlankIffAllSpace(s: string)
    ensures IsBlank(s) <==> AllSpace(s)
  {
    var n := LeadingSpaces(s);
    if AllSpace(s) && n < |s| {
      assert false;
    }
    if IsBlank(s) {
      assert s == s[..n] + s[n..];
    }
  }

  /** Lower-casing twice is lower-casing once, so a normalised answer is its own normal form. */
  lemma NormalizeIdempotent(s: string)
    ensures Normalize(Normalize(s)) == Normalize(s)
  {
    var t := Trim(s);
    var l := Lower(t);
    if |l| > 0 {
      assert l[0] == LowerChar(t[0]);
      assert l[|l| - 1] == LowerChar(t[|t| - 1]);
    }
    TrimStartOfNoLeadingSpace(l);
    TrimEndOfNoTrailingSpace(l);
  }

  /** Trailing spaces and letter case do not matter: "Paris " normalises as "paris" does. */
  lemma CaseAndSpaceIgnored()
    ensures Normalize("Paris ") == Normalize("paris")
  {
    var a := "Paris ";
    assert !IsSpace(a[0]) && IsSpace(a[5]);
    assert LeadingSpaces(a) == 0;
    assert Trim(a) == "Paris";
    var b := "paris";
    assert !IsSpace(b[0]) && !IsSpace(b[4]);
    assert LeadingSpaces(b) == 0;
    assert Trim(b) == b;
    assert Lower("Paris") == Lower(b) == b;
  }

  /** Punctuation is kept: "Paris." does not normalise as "paris" does. */
  lemma PunctuationKept()
    ensures Normalize("Paris.") != Normalize("paris")
  {
    var a := "Paris.";
    assert !IsSpace(a[0]) && !IsSpace(a[5]);
    assert LeadingSpaces(a) == 0;
    assert Trim(a) == a;
    var b := "paris";
    assert !IsSpace(b[0]) && !IsSpace(b[4]);
    assert LeadingSpaces(b) == 0;
    assert Trim(b) == b;
    assert |Lower(a)| != |Lower(b)|;
  }
}

=== FILE: types.dfy ===
/** The records of the flashcard application (types.ts): cards, named sets,
    accounts, the top-level view and the whole application snapshot. */
module Types {

  /** Optional value, standing for the source's `T | null` and `T | undefined`. */
  datatype Option<+T> = None | Some(value: T)

  /** JavaScript truthiness of an optional text: present and not empty. */
  predicate Truthy(o: Option<string>)
  {
    o.Some? && o.value != ""
  }

  /** One question/answer pair. Cards carry no identity of their own. */
  datatype Flashcard = Flashcard(question: string, answer: string)

  /** A named, ordered collection of cards owned by one account. `createdAt` is
      the ISO timestamp text the clock produced when the set was saved. */
  datatype FlashcardSet = FlashcardSet(id: string, name: string, flashcards: seq<Flashcard>, createdAt: string)

  /** An account; `passwordHash` is the stored credential text. */
  datatype User = User(email: string, passwordHash: string, sets: seq<FlashcardSet>)

  datatype View = Auth | Upload | Flashcards | MySets

  datatype Theme = Light | Dark

  /** The single application snapshot that every handler rewrites. */
  datatype AppState = AppState(
    view: View,
    theme: Theme,
    users: seq<User>,
    currentUser: Option<User>,
    activeFlashcards: seq<Flashcard>,
    editingSet: Option<FlashcardSet>)

  /** The snapshot the application starts from when nothing is stored. */
  const InitialState := AppState(Auth, Dark, [], None, [], None)

  /** The first account whose email is exactly `email`, as `Array.find` returns it. */
  function FindUser(users: seq<User>, email: string): (r: Option<User>)
    ensures r.Some? ==> r.value in users && r.value.email == email
    ensures r.None? <==> forall i :: 0 <= i < |users| ==> users[i].email != email
    ensures r.Some? ==> exists i :: 0 <= i < |users| && users[i] == r.value
                          && forall j :: 0 <= j < i ==> users[j].email != email
  {
    if |users| == 0 then None
    else if users[0].email == email then Some(users[0])
    else
      var r := FindUser(users[1..], email);
      assert r.Some? ==> users[1..][0] == users[1];
      r
  }

  /** True when some account has exactly this email. */
  predicate HasEmail(users: seq<User>, email: string)
  {
    exists i :: 0 <= i < |users| && users[i].email == email
  }

  /** No two accounts share an email. */
  predicate EmailsUnique(users: seq<User>)
  {
    forall i, j :: 0 <= i < j < |users| ==> users[i].email != users[j].email
  }

  /** The ids of a list of sets. */
  function SetIds(sets: seq<FlashcardSet>): (r: set<string>)
    ensures forall i :: 0 <= i < |sets| ==> sets[i].id in r
    ensures forall id :: id in r ==> exists i :: 0 <= i < |sets| && sets[i].id == id
  {
    set i | 0 <= i < |sets| :: sets[i].id
  }

  /** No two sets in the list share an id. */
  predicate IdsUnique(sets: seq<FlashcardSet>)
  {
    forall i, j :: 0 <= i < j < |sets| ==> sets[i].id != sets[j].id
  }
}
